=== FILE: README.md ===
# jora core in Dafny

jora is a command-line assistant that ties a developer's JIRA tasks to their git branches and
GitHub pull requests. This project models its deterministic core as pure Dafny functions over
immutable datatypes and proves the properties that core promises:

- **Reviews**: the pull-request review classifier. It keeps the latest review of every named
  reviewer, then applies the precedence changes requested, approved, review required, no reviews.
- **Matching**: the first-match, case-insensitive lookup of a task key in the open pull requests.
- **Tasks** and **StableSort**:
  - the sort priority of a task;
  - the enrichment pass that attaches pull-request fields to every task;
  - the stable sort by priority, modelled as an insertion sort with its stability proved.
- **Branches**: the `feature/<key>` branch-name conversion and the guard order of the feature-branch
  checkout.
- **DiffStats**: the parsers for `git diff --shortstat` and `git diff --numstat` output, with
  round trips against the text git prints.
- **Adf**: the extractor of plain text and media references from Atlassian Document Format
  descriptions. Its tree walk is a loop over a work list, proved equal to a recursive pre-order
  definition.
- **TaskFormat**: the one-line task formatter. It covers truncation, the priority and review
  indicators, and the padded key column.
- **Jql**: the issue-search query for "my incomplete tasks".
- **Keyboard**, **Selection**, **Interactive** and **Assign**: the terminal screens as key-transition
  functions:
  - arrow navigation;
  - the per-task action menu;
  - the component picker;
  - the task list;
  - the assignee autocomplete picker.
- **AgentStream**: the stream handler for the coding agent's JSON events. Its state is the buffered
  text, the text shown last, and a tool counter. It emits the lines it would print.
- **Text** and **Results**: shared helpers. Text holds the string operations of Python as the core
  uses them (`upper`, `lower`, `split`, `join`, `strip`, `isdigit`, `int`). Results holds `Option`
  and `Result`.

The repository holds two generations of the same logic: `client.py`, and the older
`clients/github.py`, `clients/jira.py` and `clients/git.py`. `commands/interactive.py` repeats the
task formatter too. The copies agree line for line on the modelled logic, so each is modelled once.
The table below cites one copy per member.

Python's case mapping and character classes are modelled over ASCII:

- `upper` and `lower` change only `a`-`z` and `A`-`Z`;
- `isdigit` accepts `0`-`9`;
- `isspace` accepts space, tab, line feed, vertical tab, form feed, carriage return and the
  separators U+001C to U+001F;
- `isprintable` accepts the printable ASCII range and every code point above U+00A0.

Integers are unbounded, as in Python.

Processes, HTTP, caching, the terminal and `json.loads` are outside the model. Their results become
parameters:

- `Option` for a `git` command that may fail;
- `Result` for a fetch that may raise;
- `Parsed` for what `json.loads` made of a line;
- the key string that `get_key` returned.

## Model

| member | source | states |
|---|---|---|
| `Reviews.AnalyzePrReviews` | client.py:429-454 | NO_REVIEWS exactly for an empty history. Otherwise CHANGES_REQUESTED iff some retained review asks for changes; else APPROVED iff one approves; else REVIEW_REQUIRED. A retained review is the last one of a non-empty login. The same code is at clients/github.py:63-98. |
| `Reviews.ClassifyReviews` | client.py:433-451 | The one-pass dictionary loop gives the same status as the classifier on every history. |
| `Reviews.LatestByReviewerIsLastReview` | client.py:433-438 | The reviewer dictionary holds exactly the non-empty logins that occur. Each maps to that login's last review. |
| `Reviews.LatestValuesHaveState` | client.py:440-451 | A state occurs among the dictionary's values iff some retained review carries it. |
| `Reviews.SupersededReviewIgnored` | client.py:434-438 | Removing a review that a later review by the same login replaces leaves the status unchanged. |
| `Reviews.AnonymousReviewIgnored` | client.py:435-436 | Removing a review without a login from a history of two or more leaves the status unchanged. |
| `Reviews.AnonymousReviewsNeedReview` | client.py:429-454 | A non-empty history in which no review names its author gives REVIEW_REQUIRED. |
| `Reviews.ChangeRequestWins` | client.py:443-444 | A named reviewer's final change request gives CHANGES_REQUESTED, whatever approvals came before. |
| `Matching.FirstMatchIndex` | client.py:406-411 | Either -1 with no pull request matching, or the index of a matching pull request with none matching before it. |
| `Matching.FindPrByContent` | client.py:400-417 | No result for an empty key or when nothing matches. Otherwise the url, reviews and state of the first pull request, in list order, whose title, branch or body contains the key. Same code at clients/github.py:42-61. |
| `Matching.MatchIsCaseInsensitive` | client.py:407-411 | The mixed upper-case and lower-case test is plain case-insensitive containment in title, branch or body. |
| `Matching.KeyCaseIrrelevant` | client.py:407-411 | Two keys that differ only in letter case select the same pull request. |
| `Matching.TitleMatchFound` | clients/github.py:50-61 | A non-empty key found in a pull request's title, in any case, selects that pull request. |
| `Tasks.SortPriority` | client.py:456-478 | The priority is always one of 0, 1, 2, 4. It is 4 iff the task has no pull request, 0 iff its reviews classify as approved, and 2 iff its pull request has no reviews. |
| `Tasks.RankingOrder` | clients/github.py:100-122 | Approved ranks before reviewed but unapproved, which ranks before unreviewed, which ranks before no pull request. Equal statuses rank equally. |
| `Tasks.AttachPr` | client.py:1040-1053 | Key, summary and priority are kept. The task is marked as having a pull request exactly when the matcher finds one, and then carries that match's url, reviews and state. Otherwise it carries no url, no state and no reviews. |
| `Tasks.EnrichTasks` | client.py:1039-1056 | The result has as many tasks as the input, each enriched. It is a permutation of the enriched input, in ascending priority. |
| `Tasks.EnrichIsRanked` | client.py:1056 | The ranked list is the approved tasks, then the reviewed ones, then those with unreviewed pull requests, then those without any, each group in input order. This is what Python's stable `list.sort` gives. |
| `Tasks.EnrichWithoutPrs` | clients/jira.py:355-378 | With no pull requests every task is marked as having none and the input order is kept. |
| `Tasks.FetchMyIncompleteTasks` | client.py:1026-1056 | A failed task fetch fails with "Failed to fetch JIRA tasks: " and the cause. A failed pull-request fetch counts as no pull requests. Otherwise the result is the enriched and ranked list `EnrichTasks` builds from the fetched tasks and pull requests. |
| `StableSort.SortByKey` | client.py:1056 | The sort returns a permutation of its input, in ascending key order. |
| `StableSort.SortKeepsFilter` | client.py:1056 | Stability: for every key value, the elements with that key keep their relative input order. |
| `StableSort.SortIsBuckets` | client.py:1056 | When every key lies in a strictly increasing list, the sort equals the concatenation of the per-key groups of the input, in that list's order. |
| `Branches.FeatureBranchName` | clients/git.py:49-52 | A branch name always starts with "feature/" and is eight characters longer than the key. It is entirely lower case, and its part after the prefix equals the key up to letter case. |
| `Branches.ExtractTaskKeyFromBranch` | client.py:140-146 | The key is "" for a branch outside "feature/". For a feature branch it is as long as the part after the prefix, entirely upper case, and equal to that part up to letter case. |
| `Branches.BranchRoundTrip` | client.py:140-151 | Extracting the key from the branch made for key k gives k in upper case. |
| `Branches.KeyRoundTrip` | clients/git.py:69-74 | The branch made from the key of a feature branch is that branch in lower case. |
| `Branches.BarePrefixHasNoKey` | clients/git.py:71-73 | The bare prefix "feature/" names no task. |
| `Branches.CheckoutFeatureBranch` | clients/git.py:170-188 | A missing or empty key fails with "No task key found" before any git check. Success comes exactly when the key is non-empty, the git preconditions hold, and the branch exists or develop updates and the branch is created. A missing branch whose develop update fails reports the develop error; a failed creation reports "Failed to checkout feature branch"; both under "Failed to checkout branch: ". The branch returned leads back to the key in upper case. |
| `DiffStats.ApplyPartsMeaning` | client.py:233-240 | Applying the summary parts in order succeeds iff every recognised part starts with an integer. Each count is then that of the last part of its category, or the starting value. |
| `DiffStats.ParseShortstat` | client.py:231-240 | Blank output gives zeros. Otherwise parsing succeeds iff every part naming files, insertions or deletions begins with an integer. Each count is that of the last such part, and absent categories stay 0. |
| `DiffStats.GetDiffStats` | client.py:200-267 | A failed git command gives all zeros and no files. Otherwise the result fails iff the summary does not parse; on success the counts are the parsed summary and the file list is the numstat parse. |
| `DiffStats.ShortstatRoundTrip` | client.py:223-240 | Parsing a summary line that has all three parts, in git's wording and with its plurals, gives back the three counts. |
| `DiffStats.NumstatLineRoundTrip` | client.py:247-258 | A rendered numstat line for a file without tabs parses back to its entry. |
| `DiffStats.ParseNumstatLines` | client.py:244-258 | At most one entry per line. Every line yields an entry iff every line is non-empty and has three tab fields. Each entry is the parse of some non-empty line. |
| `DiffStats.ParseNumstatLinesAppend` | client.py:244-258 | The entries of two blocks of lines are the first block's followed by the second's, so the parser works line by line, in order. |
| `DiffStats.ParseNumstatOneLine` | client.py:245-256 | One line gives its file and counts when it is non-empty and has at least three tab fields, and nothing otherwise. |
| `DiffStats.NumstatRoundTrip` | client.py:242-258 | Parsing the numstat text for entries with printable file names gives those entries, in order. |
| `DiffStats.BinaryFileCountsZero` | client.py:249-256 | A binary file, which git reports with "-" counts, is listed with zero counts. |
| `Adf.ExtractRecursive` | client.py:862-890 | The work-list walk collects exactly the pre-order text parts and media references of the recursive definition. |
| `Adf.ExtractAdfContent` | client.py:856-893 | A value that is not a dictionary gives no text and no media. Otherwise the text parts are joined by spaces and stripped, and the media references are in document order. The text never starts or ends with whitespace. |
| `Adf.ListIsTransparent` | client.py:888-890 | A list contributes exactly what its elements contribute, in order. |
| `Adf.TextOfSiblings` | client.py:866-886 | Any dictionary node contributes its own text or media first, then its children's. Each child's parts come after those of its earlier siblings and before those of its later ones. |
| `Adf.AttachmentIdPreferred` | client.py:872-881 | A media node with an id is referenced as an attachment even when it also has a url. |
| `Adf.TextNodeHasNoMedia` | client.py:868-872 | A text node contributes its text and never a media reference. |
| `Adf.TwoParagraphs` | client.py:892-893 | Two one-word paragraphs read as the two words separated by a space. |
| `TaskFormat.TruncateSummary` | clients/jira.py:76-78 | A summary of at most 55 characters is kept. A longer one becomes its first 52 characters followed by "...", exactly 55 in all. |
| `TaskFormat.TruncateIdempotent` | commands/interactive.py:303-305 | Truncation never exceeds 55 characters and does nothing to its own result. |
| `TaskFormat.PriorityIndicator` | clients/jira.py:81-85 | Red exactly for High and Highest, yellow exactly for Medium, green for anything else. |
| `TaskFormat.IndicatorRoundTrip` | clients/jira.py:88-105 | Each review status has its own indicator, so the indicator determines the status. |
| `TaskFormat.IndicatorsDistinct` | commands/interactive.py:308-332 | No review indicator equals a priority indicator or a space. |
| `TaskFormat.PrSlot` | commands/interactive.py:315-338 | Two spaces without a pull request. Otherwise exactly one indicator, and it reads back as the classifier's status for the task's reviews. |
| `TaskFormat.KeyColumn` | clients/jira.py:112 | The key column is 7 characters wide. It begins with the key's first (up to) 7 characters and is padded with spaces. |
| `TaskFormat.FormatTaskOutput` | commands/interactive.py:285-339 | The line reads back as its columns, one space apart: priority indicator, status slot, key column, truncated summary. The same code is at clients/jira.py:58-114. |
| `TaskFormat.KeyColumnAligned` | commands/interactive.py:334-339 | On screen the key column starts six terminal columns in, with or without a pull request. |
| `TaskFormat.DefaultsShown` | commands/interactive.py:295-300 | A task without fields shows the green indicator, "Unknown" and "No summary". |
| `Jql.ExclusionText` | clients/jira.py:268-270 | The exclusion joins `status != "S"` clauses with " AND " for Done, Resolved, Closed and Cancelled, in that order. |
| `Jql.BuildJql` | clients/jira.py:266-272 | The query starts with the assignee clause and " AND ", and ends with " ORDER BY updated DESC"; `Jql.JqlText` gives its whole text. |
| `Jql.JqlText` | clients/jira.py:268-272 | The query is the assignee clause, " AND ", the exclusion, and " ORDER BY updated DESC". |
| `Jql.EveryStatusExcluded` | client.py:738-742 | Every excluded status has its own clause in the query. |
| `Keyboard.KeyClassesDisjoint` | keyboard_utils.py:59-72 | No key is both escape and an arrow, both enter and quit, or enter or quit together with escape or an arrow. |
| `Keyboard.HandleArrowNavigation` | keyboard_utils.py:75-91 | Any key but the arrows keeps the index. An arrow gives an index in range. From an index in range, up moves back and down moves forward, both with wrap-around. |
| `Keyboard.NavigationInBounds` | keyboard_utils.py:87-91 | An index in range stays in range, whatever the key. |
| `Keyboard.NavigationWraps` | keyboard_utils.py:87-90 | Up from the first item reaches the last; down from the last reaches the first. |
| `Keyboard.UpDownInverse` | keyboard_utils.py:87-90 | Down undoes up and up undoes down. |
| `Selection.RemoveFirst` | commands/assign.py:168-169 | `list.remove` deletes exactly the first occurrence and nothing else. |
| `Selection.Toggle` | commands/interactive.py:166-172 | A selected entry is removed and an unselected one appended. No other entry's membership changes, and a selection without duplicates stays without duplicates. |
| `Selection.ToggleTwiceRestores` | commands/assign.py:168-171 | Toggling an unselected entry twice restores the selection. |
| `Interactive.ActionMenu` | commands/interactive.py:365-378 | Four distinct actions, ending with Back. Open PR appears iff there is a pull request, and then comes first. Create PR appears iff there is none. Browser and switch-branch stay adjacent. |
| `Interactive.ActionMenuStep` | commands/interactive.py:396-414 | Quit keys interrupt. Highlights stay in range. Escape and "3" return to the list. Enter performs the highlighted action, except Back, which returns to the list. Any other key moves the highlight as the arrow navigation does. |
| `Interactive.ComponentOptions` | commands/interactive.py:105-110 | The options are the None option, the components in order, and the Done option. |
| `Interactive.MarkersOnSelectedOnly` | commands/interactive.py:130-139 | An option shows the check mark iff it is selected. |
| `Interactive.ComponentStep` | commands/interactive.py:150-172 | `q` and Ctrl-C cancel. Enter on the None option returns nothing and Enter on Done returns the selection. Enter on a component toggles it and keeps the highlight. Any other key keeps the selection and moves the highlight as the arrow navigation does. |
| `Interactive.NoneOptionClears` | commands/interactive.py:162-164 | Enter on the None option finishes with no components, whatever was selected. |
| `Interactive.SelectComponents` | commands/interactive.py:90-172 | A failed fetch or a project without components gives the empty list. Otherwise the picker starts with nothing selected on the None option, so Enter at once returns the empty list. |
| `Interactive.PickedAreComponents` | commands/interactive.py:90-172 | Whatever keys are pressed, the picker returns distinct components of the project, never a special option. |
| `Interactive.TaskListStep` | commands/interactive.py:456-504 | Quit and escape say goodbye. A successful refresh replaces the tasks and resets the highlight to 0; every other key keeps the tasks. Other keys move the highlight as the arrow navigation does when there are tasks. Enter opens the highlighted task's actions, "c" checks it out, "n" creates a task and "h" shows help. With no tasks, Enter only redraws and "c" reports nothing to check out. A failed refresh is reported. |
| `Assign.DisplayName` | commands/assign.py:96-99 | The display begins with the login. It is the bare login iff the name is empty or equals the login. Otherwise the login is followed by " (", the name and ")". |
| `Assign.PrepareUsers` | commands/assign.py:91-100 | Users are never more than assignees, and every user has a login. |
| `Assign.PrepareUsersAppend` | commands/assign.py:92-100 | The users offered for two runs of assignees are the first run's followed by the second's, so the assignees' order is kept. |
| `Assign.PrepareOne` | commands/assign.py:93-100 | One assignee is offered, as its login and display, exactly when it has a login. |
| `Assign.PreparedUsersAreAssignees` | commands/assign.py:92-100 | A user is offered iff some assignee with a non-empty login yields that username and display. |
| `Assign.MatchingUsers` | commands/assign.py:108-111 | A user is kept iff their display contains the search, ignoring case. |
| `Assign.MatchingUsersAppend` | commands/assign.py:108-111 | Matching two runs of users gives the first run's matches followed by the second's; one user is kept exactly when it matches. So the users' order and repetitions are kept. |
| `Assign.Filtered` | commands/assign.py:107-113 | Nothing is shown for an empty search. Otherwise the view is the first ten matches, or fewer when fewer match. |
| `Assign.Clamp` | commands/assign.py:115-117 | A cursor in range is kept. One past the end moves to the last entry, or to 0 when there is none. |
| `Assign.Step` | commands/assign.py:158-184 | `q` and escape cancel; Enter returns the selection. Only space on a shown user changes the selection: it toggles the user under the clamped cursor. A typed character is appended to the search and backspace drops the last one, each resetting the cursor to 0. Only these change the search. Other keys only clamp the cursor. |
| `Assign.EnterKeepsCurrent` | commands/assign.py:161-164 | Enter at once returns the current assignees unchanged. |
| `Assign.TypeThenBackspace` | commands/assign.py:172-184 | Typing a character and then backspace restores the search. |
| `Assign.ReservedKeysNotTyped` | commands/assign.py:165-184 | `A`, `B` and space never enter the search. |
| `Assign.SpaceTwiceRestores` | commands/assign.py:165-171 | Space twice on an unselected user restores the selection. |
| `Assign.ArrowsMoveCursor` | commands/assign.py:176-181 | Up and down move the cursor cyclically through a non-empty view and do nothing otherwise. Search and selection are untouched. |
| `Assign.ChosenUsersWereOffered` | commands/assign.py:84-187 | Whatever keys are pressed, a confirmed selection holds only current assignees and offered users. |
| `AgentStream.Reset` | cursor_agent_utils.py:149-153 | Reset empties both texts and zeroes the tool counter. |
| `AgentStream.Flush` | cursor_agent_utils.py:44-60 | Pending text is always cleared and the counter kept. Empty or repeated text shows nothing. New text is shown once and becomes the last shown. Two blank lines precede it exactly when something was shown or a tool ran before. |
| `AgentStream.FlushIdempotent` | cursor_agent_utils.py:46-51 | A second flush shows nothing and changes nothing. |
| `AgentStream.GetArg` | cursor_agent_utils.py:65-66 | "unknown" when the tool kind is missing. Otherwise the value of the argument in the first entry of that kind, or "unknown" when that entry lacks it. |
| `AgentStream.ShortCommand` | cursor_agent_utils.py:90-91 | A command is kept up to 80 characters. A longer one becomes its first 77 followed by "...", never longer than 80. |
| `AgentStream.ShortCommandIdempotent` | cursor_agent_utils.py:91 | Shortening a shortened command changes nothing. |
| `AgentStream.ToolInfo` | cursor_agent_utils.py:62-101 | Terminal, then shell commands, take precedence and are shown as "Running" and the shortened command. The computer icon appears exactly for them. Then, in this order, a write, read, grep or edit call gets its icon and "Creating", "Reading", "Searching for" or "Editing" with its argument. Anything else is named by its first kind with the wrench, or "unknown" when empty. |
| `AgentStream.CommandDescriptionBounded` | cursor_agent_utils.py:88-92 | A command description starts with "Running " and is at most 88 characters. |
| `AgentStream.UnknownToolNamed` | cursor_agent_utils.py:99-101 | A tool of an unknown kind is named by its kind, with the wrench icon. |
| `AgentStream.MissingCommandIsUnknown` | cursor_agent_utils.py:88-92 | A terminal call without arguments reads "Running unknown". |
| `AgentStream.ContentText` | cursor_agent_utils.py:119-125 | Content without text items, or with only empty texts, gives no text. |
| `AgentStream.ContentTextAppend` | cursor_agent_utils.py:121-125 | The text of two runs of content is the first run's followed by the second's, so item texts are joined in list order. |
| `AgentStream.ContentTextOne` | cursor_agent_utils.py:121-125 | One item contributes its text when it is a dictionary and nothing otherwise. |
| `AgentStream.ProcessEvent` | cursor_agent_utils.py:113-142 | Only a started tool call counts, by exactly one. An assistant message prints nothing and replaces the pending text only when it has text. The init event prints the model line and a blank. A tool start flushes the pending text, counts the call, and prints a blank unless it is the first thing shown, then the tool's icon and description. A result flushes, then prints a blank and the completion line with the count. Other events change and print nothing. |
| `AgentStream.FlushingEventsShowPending` | cursor_agent_utils.py:130-142 | From any state, a tool start or a result shows the pending text exactly once when it is non-empty and differs from the text shown last, which it then becomes; otherwise it shows no message. |
| `AgentStream.ProcessStreamLine` | cursor_agent_utils.py:103-147 | Blank lines and undecodable JSON change and print nothing. JSON that is not an object prints a warning. An event is processed. |
| `AgentStream.ToolCountCountsStarts` | cursor_agent_utils.py:129-133 | After a stream the counter has grown by exactly the number of started tool calls in it. |
| `AgentStream.NoMessageRepeated` | cursor_agent_utils.py:44-60 | Across a whole stream no assistant message is shown twice in a row, nor repeats the one shown before. The handler remembers the last one shown. |
| `AgentStream.WhitespaceLineIgnored` | cursor_agent_utils.py:105-106 | A line of whitespace changes nothing and prints nothing. |
| `AgentStream.EmptyAssistantKeepsPending` | cursor_agent_utils.py:118-127 | An assistant message without text items keeps the buffered text and prints nothing. |
| `AgentStream.AssistantThenResult` | cursor_agent_utils.py:118-142 | An assistant message followed by a result shows the message once, then the completion line. |

## Left out

- Running `git`, `gh` and HTTP requests. A command's output, or its failure, is a parameter.
- The thread pool, its timeouts and the disk cache of `fetch_my_incomplete_tasks`. Only the outcomes are modelled: the tasks or a failure, the pull requests or an empty list.
- The cache timestamp, which uses floating-point time and `humanize`.
- Screen drawing, waiting for a key, and the actions a menu triggers: the browser, checkout, task creation and help text. The screens report which action they would take.
- Interactive.SelectComponents: a `Failure` stands for the `JiraAPIException` the source catches; any other exception from the component fetch propagates in the source and is not modelled.
- Exceptions raised while reading a key. This includes `KeyboardInterrupt` inside the pickers, which the source turns into a cancel or an empty list.
- `json.loads`. Each stream line comes with its decoding, and `print_stream`'s wrapping with `rich` is not modelled.
- The warning's exception text is not modelled, nor are values of the wrong JSON type: a non-dict `message`, `tool_call` or `args`, non-string argument values, a `content` that is not a list.
- A `None` model prints as "None" in the source; the model only has a present string or a missing one.
- AgentStream.ToolInfo: a `tool_call` is a sequence of entries that may repeat a kind, where the source's dictionary cannot. The first entry of a kind is the one used.
- Adf: a `content` that is a string or a dictionary is iterated by character or by key in the source, and a non-iterable `content` or an `attrs` that is not a dictionary raises. The model's `content` is always a list.
- DiffStats.ParseShortstat: `int()` also accepts underscores between digits and non-ASCII decimal digits. The model accepts a sign and ASCII digits only, so such a part fails to parse here while the source succeeds.
- TaskFormat.TaskPriority: a `priority` or `summary` that JIRA sends as `null` makes the source raise (`.get` on `None`, `len(None)`). The model knows only present or missing fields, and shows a missing one as "Unknown" or "No summary".
- Assign.IsPrintable: the Unicode categories behind `str.isprintable` above U+00A0 are approximated as printable.
- The unknown exception classes imported by `clients/*.py` and `commands/interactive.py`, which break those imports at run time. The logic is modelled as written.
- Prompt builders and command orchestration: `commands/review.py`, `address.py`, `implement.py`, `pr.py`, `task_summary.py`, `deploy.py`, `commit.py`, and `jora.py`'s argument dispatch.

=== FILE: adf.dfy ===
/** Plain text and media references from a JIRA description in Atlassian
    Document Format (`extract_adf_content` in client.py). */
module Adf {
  import opened Text

  /** The `attrs` of a node: a missing or falsy `id` or `url` is "". */
  datatype Attrs = Attrs(id: string, url: string)

  /** A decoded JSON value as the extractor sees it: a dictionary (its
      `type`, its `text`, its `attrs` and the children listed under
      `content`, each "" or empty when missing), a list, or anything else. */
  datatype Adf =
    | Node(nodeType: string, text: string, attrs: Attrs, content: seq<Adf>)
    | Items(items: seq<Adf>)
    | Scalar

  predicate IsMediaType(t: string) {
    t == "media" || t == "mediaInline" || t == "mediaSingle"
  }

  /** What a media node contributes: its attachment id, else its url, else nothing. */
  function MediaRef(attrs: Attrs): seq<string> {
    if attrs.id != "" then ["attachment:" + attrs.id]
    else if attrs.url != "" then [attrs.url]
    else []
  }

  /** The text and media contributed by the node itself, before its children. */
  function OwnText(a: Adf): seq<string> {
    if a.Node? && a.nodeType == "text" then [a.text] else []
  }

  function OwnMedia(a: Adf): seq<string> {
    if a.Node? && a.nodeType != "text" && IsMediaType(a.nodeType) then MediaRef(a.attrs) else []
  }

  /** The children the traversal descends into. */
  function Children(a: Adf): seq<Adf> {
    match a
    case Node(_, _, _, content) => content
    case Items(items) => items
    case Scalar => []
  }

  // ---------------------------------------------------------------------
  // Reference definition: a pre-order traversal
  // ---------------------------------------------------------------------

  function TextParts(a: Adf): seq<string>
    decreases a, 1
  {
    match a
    case Node(_, _, _, content) => OwnText(a) + TextPartsOf(content)
    case Items(items) => TextPartsOf(items)
    case Scalar => []
  }

  function TextPartsOf(xs: seq<Adf>): seq<string>
    decreases xs, 0
  {
    if |xs| == 0 then [] else TextParts(xs[0]) + TextPartsOf(xs[1..])
  }

  function MediaRefs(a: Adf): seq<string>
    decreases a, 1
  {
    match a
    case Node(_, _, _, content) => OwnMedia(a) + MediaRefsOf(content)
    case Items(items) => MediaRefsOf(items)
    case Scalar => []
  }

  function MediaRefsOf(xs: seq<Adf>): seq<string>
    decreases xs, 0
  {
    if |xs| == 0 then [] else MediaRefs(xs[0]) + MediaRefsOf(xs[1..])
  }

  /** Number of values in a tree, for the traversal's termination. */
  function Size(a: Adf): nat
    decreases a, 1
  {
    match a
    case Node(_, _, _, content) => 1 + SizeOf(content)
    case Items(items) => 1 + SizeOf(items)
    case Scalar => 1
  }

  function SizeOf(xs: seq<Adf>): nat
    decreases xs, 0
  {
    if |xs| == 0 then 0 else Size(xs[0]) + SizeOf(xs[1..])
  }

  lemma {:induction false} OfAppend(xs: seq<Adf>, ys: seq<Adf>)
    ensures TextPartsOf(xs + ys) == TextPartsOf(xs) + TextPartsOf(ys)
    ensures MediaRefsOf(xs + ys) == MediaRefsOf(xs) + MediaRefsOf(ys)
    ensures SizeOf(xs + ys) == SizeOf(xs) + SizeOf(ys)
  {
    if |xs| > 0 {
      assert (xs + ys)[0] == xs[0];
      assert (xs + ys)[1..] == xs[1..] + ys;
      OfAppend(xs[1..], ys);
    } else {
      assert xs + ys == ys;
    }
  }

  /** Every value contributes its own part, then its children's. */
  lemma Unfold(a: Adf)
    ensures TextParts(a) == OwnText(a) + TextPartsOf(Children(a))
    ensures MediaRefs(a) == OwnMedia(a) + MediaRefsOf(Children(a))
    ensures Size(a) == 1 + SizeOf(Children(a))
  {
  }

  lemma OneStep(a: Adf, rest: seq<Adf>)
    ensures TextPartsOf([a] + rest) == OwnText(a) + TextPartsOf(Children(a) + rest)
    ensures MediaRefsOf([a] + rest) == OwnMedia(a) + MediaRefsOf(Children(a) + rest)
    ensures SizeOf([a] + rest) > SizeOf(Children(a) + rest)
  {
    var xs := [a] + rest;
    assert xs[0] == a && xs[1..] == rest;
    assert TextPartsOf(xs) == TextParts(a) + TextPartsOf(rest);
    assert MediaRefsOf(xs) == MediaRefs(a) + MediaRefsOf(rest);
    assert SizeOf(xs) == Size(a) + SizeOf(rest);
    Unfold(a);
    OfAppend(Children(a), rest);
  }

  // ---------------------------------------------------------------------
  // The extractor
  // ---------------------------------------------------------------------

  /** The nested `extract_recursive` with its two accumulating lists, run
      with an explicit work list of values still to visit (front first). */
  method ExtractRecursive(root: Adf) returns (texts: seq<string>, media: seq<string>)
    ensures texts == TextParts(root)
    ensures media == MediaRefs(root)
  {
    texts, media := [], [];
    var pending := [root];
    assert pending[1..] == [];
    while |pending| > 0
      invariant texts + TextPartsOf(pending) == TextParts(root)
      invariant media + MediaRefsOf(pending) == MediaRefs(root)
      decreases SizeOf(pending)
    {
      var a := pending[0];
      OneStep(a, pending[1..]);
      assert [a] + pending[1..] == pending;
      texts := texts + OwnText(a);
      media := media + OwnMedia(a);
      pending := Children(a) + pending[1..];
    }
  }

  /** `extract_adf_content`: nothing unless the description is a dictionary;
      otherwise the text nodes joined by single spaces and stripped, and the
      media references, both in document order. */
  method ExtractAdfContent(description: Adf) returns (text: string, media: seq<string>)
    ensures !description.Node? ==> text == "" && media == []
    ensures description.Node? ==> text == Strip(Join(" ", TextParts(description)))
    ensures description.Node? ==> media == MediaRefs(description)
    ensures text == [] || (!IsSpace(text[0]) && !IsSpace(text[|text| - 1]))
  {
    if !description.Node? {
      return "", [];
    }
    var texts;
    texts, media := ExtractRecursive(description);
    text := Strip(Join(" ", texts));
  }

  // ---------------------------------------------------------------------
  // Properties
  // ---------------------------------------------------------------------

  /** A list holding the same nodes as a dictionary's content contributes
      exactly what that content does: wrapping in a list is transparent. */
  lemma ListIsTransparent(xs: seq<Adf>)
    ensures TextParts(Items(xs)) == TextPartsOf(xs)
    ensures MediaRefs(Items(xs)) == MediaRefsOf(xs)
  {
  }

  /** Any dictionary node contributes its own part first, then its
      children's in document order: the `i`-th child's parts come after
      those of every earlier sibling and before those of every later one. */
  lemma {:induction false} TextOfSiblings(ty: string, t: string, attrs: Attrs, content: seq<Adf>, i: nat)
    requires i <= |content|
    ensures var a := Node(ty, t, attrs, content);
      && TextParts(a) == OwnText(a) + TextPartsOf(content[..i]) + TextPartsOf(content[i..])
      && MediaRefs(a) == OwnMedia(a) + MediaRefsOf(content[..i]) + MediaRefsOf(content[i..])
    ensures i < |content| ==>
      && TextPartsOf(content[i..]) == TextParts(content[i]) + TextPartsOf(content[i + 1..])
      && MediaRefsOf(content[i..]) == MediaRefs(content[i]) + MediaRefsOf(content[i + 1..])
  {
    OfAppend(content[..i], content[i..]);
    assert content[..i] + content[i..] == content;
    if i < |content| {
      assert content[i..][1..] == content[i + 1..];
    }
  }

  /** A media node with an id is referenced as an attachment even when it also has a url. */
  lemma AttachmentIdPreferred(t: string, id: string, url: string)
    requires IsMediaType(t) && id != ""
    ensures MediaRefs(Node(t, "", Attrs(id, url), [])) == ["attachment:" + id]
  {
  }

  /** A text node never contributes media, whatever its attributes. */
  lemma TextNodeHasNoMedia(s: string, attrs: Attrs)
    ensures MediaRefs(Node("text", s, attrs, [])) == []
    ensures TextParts(Node("text", s, attrs, [])) == [s]
  {
  }

  /** Two paragraphs of one word each read as the words separated by a space. */
  lemma TwoParagraphs(w1: string, w2: string)
    requires |w1| > 0 && |w2| > 0
    requires forall i :: 0 <= i < |w1| ==> !IsSpace(w1[i])
    requires forall i :: 0 <= i < |w2| ==> !IsSpace(w2[i])
    ensures Strip(Join(" ", TextParts(Node("doc", "", Attrs("", ""), [
      Node("paragraph", "", Attrs("", ""), [Node("text", w1, Attrs("", ""), [])]),
      Node("paragraph", "", Attrs("", ""), [Node("text", w2, Attrs("", ""), [])])]))))
      == w1 + " " + w2
  {
    var p1 := Node("paragraph", "", Attrs("", ""), [Node("text", w1, Attrs("", ""), [])]);
    var p2 := Node("paragraph", "", Attrs("", ""), [Node("text", w2, Attrs("", ""), [])]);
    assert [p1, p2][1..] == [p2];
    assert TextPartsOf([Node("text", w1, Attrs("", ""), [])]) == [w1];
    assert TextPartsOf([Node("text", w2, Attrs("", ""), [])]) == [w2];
    assert TextPartsOf([p2]) == [w2];
    assert TextPartsOf([p1, p2]) == [w1, w2];
    assert [w1, w2][1..] == [w2];
    var s := w1 + " " + w2;
    assert Join(" ", [w1, w2]) == s;
    assert s[0] == w1[0];
    assert s[|s| - 1] == w2[|w2| - 1];
    assert StripLeft(s) == s;
  }
}

=== FILE: agentstream.dfy ===
/** The stream handler for the coding agent's JSON event stream
    (`CursorAgentStreamHandler` in cursor_agent_utils.py): a small state
    of buffered and last-shown assistant text plus a tool counter, driven
    by already-parsed events, and the lines it would print. */
module AgentStream {
  import opened Results
  import opened Text

  /** Handler state: text waiting to be shown, the text shown last, and the tool calls seen. */
  datatype Handler = Handler(pending: string, lastFlushed: string, toolCount: nat)

  /** A fresh handler; `reset` returns to it. */
  const Initial: Handler := Handler("", "", 0)

  function Reset(h: Handler): (r: Handler)
    ensures r.pending == "" && r.lastFlushed == "" && r.toolCount == 0
  {
    Initial
  }

  /** What the handler prints: an empty line, a stream line (ended by a
      line break or not), an assistant message, or a warning on stderr. */
  datatype Output =
    | Blank
    | Line(text: string, ends: bool)
    | Assistant(text: string)
    | Warning

  /** One entry of an assistant message's content list: a dict with its
      `text` ("" when missing), or anything else. */
  datatype Item = TextItem(text: string) | OtherItem

  /** One entry of a `tool_call` object: the tool kind and its `args`. */
  datatype ToolEntry = ToolEntry(kind: string, args: map<string, string>)

  /** A decoded event; missing string fields are "". */
  datatype Event = Event(
    eventType: string,
    subtype: string,
    model: Option<string>,
    content: seq<Item>,
    toolCall: seq<ToolEntry>)

  /** What `json.loads` made of a line. */
  datatype Parsed = NotJson | NotObject | Decoded(event: Event)

  // ---------------------------------------------------------------------
  // Flushing (`_flush_assistant`)
  // ---------------------------------------------------------------------

  /** Shows the pending text unless it is empty or repeats the last shown
      text; two blank lines go before it unless it is the very first
      thing of the stream. */
  function Flush(h: Handler): (r: (Handler, seq<Output>))
    ensures r.0.pending == "" && r.0.toolCount == h.toolCount
    ensures h.pending == "" || h.pending == h.lastFlushed ==> r.0.lastFlushed == h.lastFlushed && r.1 == []
    ensures h.pending != "" && h.pending != h.lastFlushed ==>
      && r.0.lastFlushed == h.pending
      && |r.1| > 0 && r.1[|r.1| - 1] == Assistant(h.pending)
      && (forall i :: 0 <= i < |r.1| - 1 ==> r.1[i] == Blank)
      && (|r.1| == 3 <==> h.lastFlushed != "" || h.toolCount > 0)
      && (|r.1| == 1 <==> h.lastFlushed == "" && h.toolCount == 0)
  {
    if h.pending == "" || h.pending == h.lastFlushed then
      (h.(pending := ""), [])
    else
      var gap := if h.lastFlushed != "" || h.toolCount > 0 then [Blank, Blank] else [];
      (Handler("", h.pending, h.toolCount), gap + [Assistant(h.pending)])
  }

  /** Flushing twice shows nothing more than flushing once. */
  lemma FlushIdempotent(h: Handler)
    ensures Flush(Flush(h).0) == (Flush(h).0, [])
  {
  }

  // ---------------------------------------------------------------------
  // Tool descriptions (`_get_tool_info`)
  // ---------------------------------------------------------------------

  const TERMINAL_TOOL: string := "terminalToolCall"
  const SHELL_TOOL: string := "shellToolCall"
  const WRITE_TOOL: string := "writeToolCall"
  const READ_TOOL: string := "readToolCall"
  const GREP_TOOL: string := "grepToolCall"
  const EDIT_TOOL: string := "searchReplaceToolCall"

  const COMPUTER_ICON: string := "\U{1F4BB}"
  const WRENCH_ICON: string := "\U{1F527}"
  const BOOK_ICON: string := "\U{1F4D6}"
  const LENS_ICON: string := "\U{1F50D}"
  const PENCIL_ICON: string := "\U{270F}\U{FE0F}"

  const MAX_COMMAND_LENGTH: nat := 80

  predicate HasKind(call: seq<ToolEntry>, kind: string) {
    exists i :: 0 <= i < |call| && call[i].kind == kind
  }

  /** `tool_call.get(kind, {}).get("args", {}).get(name, "unknown")`. */
  function GetArg(call: seq<ToolEntry>, kind: string, name: string): (v: string)
    ensures !HasKind(call, kind) ==> v == "unknown"
    ensures forall i :: 0 <= i < |call| && call[i].kind == kind && !HasKind(call[..i], kind) ==>
      v == if name in call[i].args then call[i].args[name] else "unknown"
  {
    if |call| == 0 then "unknown"
    else if call[0].kind == kind then
      if name in call[0].args then call[0].args[name] else "unknown"
    else
      assert HasKind(call, kind) ==> HasKind(call[1..], kind) by {
        if HasKind(call, kind) {
          var i :| 0 <= i < |call| && call[i].kind == kind;
          assert call[1..][i - 1].kind == kind;
        }
      }
      forall i | 0 <= i < |call| && call[i].kind == kind && !HasKind(call[..i], kind)
        ensures i > 0 && call[1..][i - 1] == call[i] && !HasKind(call[1..][..i - 1], kind)
      {
        assert call[1..][..i - 1] == call[..i][1..];
      }
      GetArg(call[1..], kind, name)
  }

  /** A command over 80 characters keeps its first 77 and gains "...". */
  function ShortCommand(cmd: string): (r: string)
    ensures |r| <= MAX_COMMAND_LENGTH
    ensures |cmd| <= MAX_COMMAND_LENGTH ==> r == cmd
    ensures |cmd| > MAX_COMMAND_LENGTH ==> |r| == MAX_COMMAND_LENGTH && StartsWith(cmd, r[..77]) && r[77..] == "..."
  {
    if |cmd| <= MAX_COMMAND_LENGTH then cmd else cmd[..77] + "..."
  }

  /** Shortening is idempotent: a shortened command stays as it is. */
  lemma ShortCommandIdempotent(cmd: string)
    ensures ShortCommand(ShortCommand(cmd)) == ShortCommand(cmd)
  {
  }

  predicate IsCommand(call: seq<ToolEntry>) {
    HasKind(call, TERMINAL_TOOL) || HasKind(call, SHELL_TOOL)
  }

  /** One of the six kinds the handler describes specially. */
  predicate IsKnownTool(call: seq<ToolEntry>) {
    || IsCommand(call) || HasKind(call, WRITE_TOOL) || HasKind(call, READ_TOOL)
    || HasKind(call, GREP_TOOL) || HasKind(call, EDIT_TOOL)
  }

  /** The icon and description of a tool call. Terminal and shell commands
      come first, then the four file and search tools in this order, and
      anything else is named by its first key. */
  function ToolInfo(call: seq<ToolEntry>): (r: (string, string))
    ensures HasKind(call, TERMINAL_TOOL) ==> r == (COMPUTER_ICON, "Running " + ShortCommand(GetArg(call, TERMINAL_TOOL, "command")))
    ensures !HasKind(call, TERMINAL_TOOL) && HasKind(call, SHELL_TOOL) ==>
      r == (COMPUTER_ICON, "Running " + ShortCommand(GetArg(call, SHELL_TOOL, "command")))
    ensures r.0 == COMPUTER_ICON <==> HasKind(call, TERMINAL_TOOL) || HasKind(call, SHELL_TOOL)
    ensures !IsCommand(call) && HasKind(call, WRITE_TOOL) ==>
      r == (WRENCH_ICON, "Creating " + GetArg(call, WRITE_TOOL, "path"))
    ensures !IsCommand(call) && !HasKind(call, WRITE_TOOL) && HasKind(call, READ_TOOL) ==>
      r == (BOOK_ICON, "Reading " + GetArg(call, READ_TOOL, "path"))
    ensures !IsCommand(call) && !HasKind(call, WRITE_TOOL) && !HasKind(call, READ_TOOL) && HasKind(call, GREP_TOOL) ==>
      r == (LENS_ICON, "Searching for '" + GetArg(call, GREP_TOOL, "pattern") + "'")
    ensures (&& !IsCommand(call) && !HasKind(call, WRITE_TOOL) && !HasKind(call, READ_TOOL)
             && !HasKind(call, GREP_TOOL) && HasKind(call, EDIT_TOOL)) ==>
      r == (PENCIL_ICON, "Editing " + GetArg(call, EDIT_TOOL, "file_path"))
    ensures !IsKnownTool(call) ==> r == (WRENCH_ICON, if |call| == 0 then "unknown" else call[0].kind)
  {
    if HasKind(call, TERMINAL_TOOL) then (COMPUTER_ICON, "Running " + ShortCommand(GetArg(call, TERMINAL_TOOL, "command")))
    else if HasKind(call, SHELL_TOOL) then (COMPUTER_ICON, "Running " + ShortCommand(GetArg(call, SHELL_TOOL, "command")))
    else if HasKind(call, WRITE_TOOL) then (WRENCH_ICON, "Creating " + GetArg(call, WRITE_TOOL, "path"))
    else if HasKind(call, READ_TOOL) then (BOOK_ICON, "Reading " + GetArg(call, READ_TOOL, "path"))
    else if HasKind(call, GREP_TOOL) then (LENS_ICON, "Searching for '" + GetArg(call, GREP_TOOL, "pattern") + "'")
    else if HasKind(call, EDIT_TOOL) then (PENCIL_ICON, "Editing " + GetArg(call, EDIT_TOOL, "file_path"))
    else (WRENCH_ICON, if |call| == 0 then "unknown" else call[0].kind)
  }

  /** A command description never runs past "Running " and 80 characters. */
  lemma CommandDescriptionBounded(call: seq<ToolEntry>)
    requires HasKind(call, TERMINAL_TOOL) || HasKind(call, SHELL_TOOL)
    ensures StartsWith(ToolInfo(call).1, "Running ")
    ensures |ToolInfo(call).1| <= 8 + MAX_COMMAND_LENGTH
  {
  }

  /** A tool of an unknown kind is reported by its kind, with the wrench. */
  lemma UnknownToolNamed(entry: ToolEntry)
    requires entry.kind !in {TERMINAL_TOOL, SHELL_TOOL, WRITE_TOOL, READ_TOOL, GREP_TOOL, EDIT_TOOL}
    ensures ToolInfo([entry]) == (WRENCH_ICON, entry.kind)
  {
  }

  /** A terminal command with its arguments missing is described as "Running unknown". */
  lemma MissingCommandIsUnknown()
    ensures ToolInfo([ToolEntry(TERMINAL_TOOL, map[])]) == (COMPUTER_ICON, "Running " + "unknown")
  {
    var call := [ToolEntry(TERMINAL_TOOL, map[])];
    assert call[0].kind == TERMINAL_TOOL;
    assert GetArg(call, TERMINAL_TOOL, "command") == "unknown";
    assert ShortCommand("unknown") == "unknown";
  }

  // ---------------------------------------------------------------------
  // Processing a line (`process_stream_line`)
  // ---------------------------------------------------------------------

  const ROBOT_ICON: string := "\U{1F916}"
  const DONE_MARK: string := "\U{2713}"

  /** The non-empty texts of the dict items of a content list, concatenated. */
  function ContentText(content: seq<Item>): (t: string)
    ensures (forall i :: 0 <= i < |content| ==> content[i].OtherItem? || content[i].text == "") ==> t == ""
  {
    if |content| == 0 then ""
    else (if content[0].TextItem? then content[0].text else "") + ContentText(content[1..])
  }

  /** The text of a concatenation of content lists is the texts of the
      parts, in order; with `ContentTextOne` this says every dict item's
      text is taken, in list order. */
  lemma {:induction false} ContentTextAppend(a: seq<Item>, b: seq<Item>)
    ensures ContentText(a + b) == ContentText(a) + ContentText(b)
    decreases |a|
  {
    if |a| == 0 {
      assert a + b == b;
    } else {
      var head := if a[0].TextItem? then a[0].text else "";
      assert (a + b)[1..] == a[1..] + b;
      assert ContentText(a + b) == head + ContentText(a[1..] + b);
      ContentTextAppend(a[1..], b);
      assert ContentText(a) == head + ContentText(a[1..]);
    }
  }

  /** One item contributes its text when it is a dictionary and nothing otherwise. */
  lemma ContentTextOne(x: Item)
    ensures ContentText([x]) == if x.TextItem? then x.text else ""
  {
    assert [x][1..] == [];
  }

  predicate IsToolStart(e: Event) {
    e.eventType == "tool_call" && e.subtype == "started"
  }

  function CompletedLine(toolCount: nat): string {
    DONE_MARK + " Completed (" + NatToString(toolCount) + " tools)"
  }

  /** What one decoded event does to the handler and prints. */
  function ProcessEvent(h: Handler, e: Event): (r: (Handler, seq<Output>))
    ensures r.0.toolCount == if IsToolStart(e) then h.toolCount + 1 else h.toolCount
    ensures e.eventType == "assistant" ==>
      r.1 == [] && r.0.lastFlushed == h.lastFlushed
      && r.0.pending == if ContentText(e.content) == "" then h.pending else ContentText(e.content)
    ensures IsToolStart(e) || e.eventType == "result" ==> r.0.pending == ""
    ensures e.eventType == "result" ==> |r.1| >= 2 && r.1[|r.1| - 1] == Line(CompletedLine(h.toolCount), true)
    ensures e.eventType != "assistant" && !IsToolStart(e) && e.eventType != "result" ==> r.0 == h
    ensures e.eventType == "system" && e.subtype == "init" ==>
      r.1 == [Line(ROBOT_ICON + " Model: " + e.model.GetOr("unknown"), true), Blank]
    ensures (|| (e.eventType == "system" && e.subtype != "init")
             || (e.eventType == "tool_call" && !IsToolStart(e))
             || e.eventType !in {"system", "assistant", "tool_call", "result"}) ==> r == (h, [])
    ensures IsToolStart(e) ==>
      var (flushed, shown) := Flush(h);
      var (icon, description) := ToolInfo(e.toolCall);
      && r.0 == flushed.(toolCount := h.toolCount + 1)
      && r.1 == shown + (if h.toolCount + 1 > 1 || flushed.lastFlushed != "" then [Blank] else [])
                + [Line(icon + " " + description, false)]
    ensures e.eventType == "result" ==> r == (Flush(h).0, Flush(h).1 + [Blank, Line(CompletedLine(h.toolCount), true)])
  {
    if e.eventType == "system" && e.subtype == "init" then
      (h, [Line(ROBOT_ICON + " Model: " + e.model.GetOr("unknown"), true), Blank])
    else if e.eventType == "assistant" then
      var text := ContentText(e.content);
      (if text != "" then h.(pending := text) else h, [])
    else if e.eventType == "tool_call" then
      if e.subtype == "started" then
        var (flushed, shown) := Flush(h);
        var counted := flushed.(toolCount := flushed.toolCount + 1);
        var (icon, description) := ToolInfo(e.toolCall);
        var gap := if counted.toolCount > 1 || counted.lastFlushed != "" then [Blank] else [];
        (counted, shown + gap + [Line(icon + " " + description, false)])
      else (h, [])
    else if e.eventType == "result" then
      var (flushed, shown) := Flush(h);
      (flushed, shown + [Blank, Line(CompletedLine(flushed.toolCount), true)])
    else (h, [])
  }

  /** One line of the stream: blank lines and undecodable JSON are
      skipped, JSON that is not an object gives a warning, and an event is
      processed. */
  function ProcessStreamLine(h: Handler, line: string, parsed: Parsed): (r: (Handler, seq<Output>))
    ensures Strip(line) == "" || parsed.NotJson? ==> r == (h, [])
    ensures Strip(line) != "" && parsed.NotObject? ==> r == (h, [Warning])
    ensures Strip(line) != "" && parsed.Decoded? ==> r == ProcessEvent(h, parsed.event)
  {
    if Strip(line) == "" then (h, [])
    else
      match parsed
      case NotJson => (h, [])
      case NotObject => (h, [Warning])
      case Decoded(e) => ProcessEvent(h, e)
  }

  /** The handler fed a whole stream of lines, each with its decoding. */
  function ProcessStream(h: Handler, lines: seq<(string, Parsed)>): (Handler, seq<Output>)
    decreases |lines|
  {
    if |lines| == 0 then (h, [])
    else
      var first := ProcessStreamLine(h, lines[0].0, lines[0].1);
      var rest := ProcessStream(first.0, lines[1..]);
      (rest.0, first.1 + rest.1)
  }

  // ---------------------------------------------------------------------
  // Properties of a whole stream
  // ---------------------------------------------------------------------

  /** A line that starts a tool call. */
  predicate StartsTool(line: (string, Parsed)) {
    Strip(line.0) != "" && line.1.Decoded? && IsToolStart(line.1.event)
  }

  /** The number of lines that start a tool call. */
  function CountToolStarts(lines: seq<(string, Parsed)>): nat {
    if |lines| == 0 then 0
    else (if StartsTool(lines[0]) then 1 else 0) + CountToolStarts(lines[1..])
  }

  /** The tool counter counts exactly the tool calls started in the stream. */
  lemma {:induction false} ToolCountCountsStarts(h: Handler, lines: seq<(string, Parsed)>)
    ensures ProcessStream(h, lines).0.toolCount == h.toolCount + CountToolStarts(lines)
    decreases |lines|
  {
    if |lines| > 0 {
      ToolCountCountsStarts(ProcessStreamLine(h, lines[0].0, lines[0].1).0, lines[1..]);
    }
  }

  /** The assistant messages among the outputs, in order. */
  function Shown(outs: seq<Output>): (texts: seq<string>)
    ensures |texts| <= |outs|
  {
    if |outs| == 0 then []
    else (if outs[0].Assistant? then [outs[0].text] else []) + Shown(outs[1..])
  }

  lemma {:induction false} ShownAppend(a: seq<Output>, b: seq<Output>)
    ensures Shown(a + b) == Shown(a) + Shown(b)
    decreases |a|
  {
    if |a| == 0 {
      assert a + b == b;
    } else {
      var t := a + b;
      assert t[0] == a[0] && t[1..] == a[1..] + b;
      assert Shown(t) == (if a[0].Assistant? then [a[0].text] else []) + Shown(a[1..] + b);
      ShownAppend(a[1..], b);
    }
  }

  predicate NoAdjacentRepeats(texts: seq<string>) {
    forall i :: 0 <= i < |texts| - 1 ==> texts[i] != texts[i + 1]
  }

  /** Outputs without an assistant message show nothing. */
  lemma {:induction false} ShownNone(outs: seq<Output>)
    requires forall i :: 0 <= i < |outs| ==> !outs[i].Assistant?
    ensures Shown(outs) == []
    decreases |outs|
  {
    if |outs| > 0 {
      ShownNone(outs[1..]);
    }
  }

  /** A flush shows the pending text or nothing. */
  lemma FlushShowsPending(h: Handler)
    ensures || (Shown(Flush(h).1) == [] && Flush(h).0.lastFlushed == h.lastFlushed)
            || (Shown(Flush(h).1) == [h.pending] && Flush(h).0.lastFlushed == h.pending && h.pending != h.lastFlushed)
  {
    var shown := Flush(h).1;
    if shown != [] {
      ShownAppend(shown[..|shown| - 1], [Assistant(h.pending)]);
      assert shown == shown[..|shown| - 1] + [Assistant(h.pending)];
      ShownNone(shown[..|shown| - 1]);
    }
  }

  /** Outputs that end with lines other than assistant messages show what their head shows. */
  lemma ShownWithTail(head: seq<Output>, tail: seq<Output>)
    requires forall i :: 0 <= i < |tail| ==> !tail[i].Assistant?
    ensures Shown(head + tail) == Shown(head)
  {
    ShownAppend(head, tail);
    ShownNone(tail);
  }

  /** What one event adds to the shown messages: nothing, or the new last-shown text. */
  lemma EventShowsAtMostOne(h: Handler, e: Event)
    ensures var r := ProcessEvent(h, e);
      || (Shown(r.1) == [] && r.0.lastFlushed == h.lastFlushed)
      || (Shown(r.1) == [r.0.lastFlushed] && r.0.lastFlushed != h.lastFlushed)
  {
    var r := ProcessEvent(h, e);
    var f := Flush(h);
    FlushShowsPending(h);
    if IsToolStart(e) {
      var counted := f.0.(toolCount := f.0.toolCount + 1);
      var info := ToolInfo(e.toolCall);
      var gap: seq<Output> := if counted.toolCount > 1 || counted.lastFlushed != "" then [Blank] else [];
      var tail := gap + [Line(info.0 + " " + info.1, false)];
      assert r == (counted, f.1 + gap + [Line(info.0 + " " + info.1, false)]);
      assert f.1 + gap + [Line(info.0 + " " + info.1, false)] == f.1 + tail;
      ShownWithTail(f.1, tail);
    } else if e.eventType == "result" {
      var tail := [Blank, Line(CompletedLine(f.0.toolCount), true)];
      assert r == (f.0, f.1 + tail);
      ShownWithTail(f.1, tail);
    } else {
      ShownNone(r.1);
    }
  }

  /** A single line shows at most one assistant message: the new last-shown text, which differs from the previous one. */
  lemma LineShowsAtMostOne(h: Handler, line: string, parsed: Parsed)
    ensures var (h1, outs) := ProcessStreamLine(h, line, parsed);
      || (Shown(outs) == [] && h1.lastFlushed == h.lastFlushed)
      || (Shown(outs) == [h1.lastFlushed] && h1.lastFlushed != h.lastFlushed)
  {
    if Strip(line) != "" && parsed.Decoded? {
      EventShowsAtMostOne(h, parsed.event);
    } else {
      ShownNone(ProcessStreamLine(h, line, parsed).1);
    }
  }

  /** Putting a different text in front of a repeat-free chain keeps it repeat-free. */
  lemma ConsKeepsNoRepeats(x: string, rest: seq<string>)
    requires |rest| > 0 && x != rest[0] && NoAdjacentRepeats(rest)
    ensures NoAdjacentRepeats([x] + rest)
  {
    var chain := [x] + rest;
    forall i | 0 <= i < |chain| - 1
      ensures chain[i] != chain[i + 1]
    {
      if i > 0 {
        assert chain[i] == rest[i - 1] && chain[i + 1] == rest[i];
      }
    }
  }

  /** Across a whole stream the handler never shows the same assistant
      message twice in a row (nor repeats the one shown before the
      stream), and remembers the last one it showed. */
  lemma {:induction false} NoMessageRepeated(h: Handler, lines: seq<(string, Parsed)>)
    ensures NoAdjacentRepeats([h.lastFlushed] + Shown(ProcessStream(h, lines).1))
    ensures ProcessStream(h, lines).0.lastFlushed == ([h.lastFlushed] + Shown(ProcessStream(h, lines).1))[|Shown(ProcessStream(h, lines).1)|]
    decreases |lines|
  {
    if |lines| == 0 {
      assert Shown(ProcessStream(h, lines).1) == [];
    } else {
      var first := ProcessStreamLine(h, lines[0].0, lines[0].1);
      var next := ProcessStream(first.0, lines[1..]);
      var all := ProcessStream(h, lines);
      assert all.0 == next.0 && all.1 == first.1 + next.1;
      LineShowsAtMostOne(h, lines[0].0, lines[0].1);
      NoMessageRepeated(first.0, lines[1..]);
      ShownAppend(first.1, next.1);
      var later := Shown(next.1);
      var rest := [first.0.lastFlushed] + later;
      var chain := [h.lastFlushed] + Shown(all.1);
      assert next.0.lastFlushed == rest[|later|];
      if Shown(first.1) == [] {
        assert Shown(all.1) == later;
        assert chain == rest;
      } else {
        assert Shown(all.1) == [first.0.lastFlushed] + later;
        assert chain == [h.lastFlushed] + rest;
        ConsKeepsNoRepeats(h.lastFlushed, rest);
        assert chain[|Shown(all.1)|] == rest[|later|];
      }
    }
  }

  /** A line of whitespace changes nothing and prints nothing, whatever it decodes to. */
  lemma WhitespaceLineIgnored(h: Handler, line: string, parsed: Parsed)
    requires forall i :: 0 <= i < |line| ==> IsSpace(line[i])
    ensures ProcessStreamLine(h, line, parsed) == (h, [])
  {
    StripOfSpaces(line);
  }

  lemma {:induction false} StripOfSpaces(line: string)
    requires forall i :: 0 <= i < |line| ==> IsSpace(line[i])
    ensures Strip(line) == ""
  {
    if |line| > 0 {
      assert IsSpace(line[0]);
    }
  }

  /** An assistant message without text keeps the buffered text. */
  lemma EmptyAssistantKeepsPending(h: Handler, e: Event)
    requires e.eventType == "assistant" && forall i :: 0 <= i < |e.content| ==> e.content[i].OtherItem?
    ensures ProcessEvent(h, e) == (h, [])
  {
  }

  /** A flush shows the buffered text exactly when it is new. */
  lemma FlushShows(h: Handler)
    ensures Shown(Flush(h).1) == if h.pending != "" && h.pending != h.lastFlushed then [h.pending] else []
  {
    if h.pending != "" && h.pending != h.lastFlushed {
      var gap := if h.lastFlushed != "" || h.toolCount > 0 then [Blank, Blank] else [];
      ShownNone(gap);
      ShownAppend(gap, [Assistant(h.pending)]);
      assert [Assistant(h.pending)][1..] == [];
    }
  }

  /** A tool start or a result shows the buffered text, once, unless it is
      empty or repeats the text shown last; that text becomes the last shown. */
  lemma FlushingEventsShowPending(h: Handler, e: Event)
    requires IsToolStart(e) || e.eventType == "result"
    ensures var r := ProcessEvent(h, e);
      && r.0.pending == ""
      && (h.pending != "" && h.pending != h.lastFlushed ==> Shown(r.1) == [h.pending] && r.0.lastFlushed == h.pending)
      && (h.pending == "" || h.pending == h.lastFlushed ==> Shown(r.1) == [] && r.0.lastFlushed == h.lastFlushed)
  {
    var r := ProcessEvent(h, e);
    var shown := Flush(h).1;
    var tail := r.1[|shown|..];
    assert r.1 == shown + tail;
    ShownNone(tail);
    ShownAppend(shown, tail);
    FlushShows(h);
  }

  /** An assistant message, then a result: the message is shown once and the
      run ends with the completion line for the tools seen. */
  lemma AssistantThenResult(text: string)
    requires text != ""
    ensures ProcessEvent(Initial, Event("assistant", "", None, [TextItem(text)], [])) == (Handler(text, "", 0), [])
    ensures ProcessEvent(Handler(text, "", 0), Event("result", "", None, [], [])) ==
      (Handler("", text, 0), [Assistant(text), Blank, Line(CompletedLine(0), true)])
  {
    assert ContentText([TextItem(text)]) == text + ContentText([]);
    assert text + "" == text;
    var h1 := Handler(text, "", 0);
    assert [] + [Assistant(text)] == [Assistant(text)];
    assert Flush(h1) == (Handler("", text, 0), [Assistant(text)]);
    assert [Assistant(text)] + [Blank, Line(CompletedLine(0), true)] == [Assistant(text), Blank, Line(CompletedLine(0), true)];
  }
}

=== FILE: assign.dfy ===
/** The assignee autocomplete picker (`_select_users` in
    commands/assign.py) as a state `(search, cursor, selected)` with a
    key-transition function and the `filtered` view it shows. */
module Assign {
  import opened Text
  import opened Keyboard
  import opened Selection

  /** One entry of the repository's assignable users; a missing `login` or `name` is "". */
  datatype Assignee = Assignee(login: string, name: string)

  datatype User = User(username: string, display: string)

  /** The login, followed by the name in parentheses when it adds something. */
  function DisplayName(a: Assignee): (d: string)
    ensures StartsWith(d, a.login)
    ensures d == a.login <==> a.name == "" || a.name == a.login
    ensures d != a.login ==> d[|a.login|..] == " (" + a.name + ")"
  {
    if a.name != "" && a.name != a.login then a.login + " (" + a.name + ")" else a.login
  }

  /** The users offered: assignees with a login, in their order. */
  function PrepareUsers(assignees: seq<Assignee>): (users: seq<User>)
    ensures |users| <= |assignees|
    ensures forall i :: 0 <= i < |users| ==> users[i].username != ""
  {
    if |assignees| == 0 then []
    else
      var init := PrepareUsers(assignees[..|assignees| - 1]);
      var a := assignees[|assignees| - 1];
      if a.login != "" then init + [User(a.login, DisplayName(a))] else init
  }

  /** A user is offered exactly when some assignee with that login exists. */
  lemma {:induction false} PreparedUsersAreAssignees(assignees: seq<Assignee>, u: User)
    ensures u in PrepareUsers(assignees) <==>
      exists i :: 0 <= i < |assignees| && assignees[i].login != "" && u == User(assignees[i].login, DisplayName(assignees[i]))
  {
    if |assignees| > 0 {
      var init := assignees[..|assignees| - 1];
      PreparedUsersAreAssignees(init, u);
      assert forall i :: 0 <= i < |init| ==> init[i] == assignees[i];
    }
  }

  /** The offered users of a concatenation are those of each part, in
      order; with the one-assignee case this fixes the whole list. */
  lemma {:induction false} PrepareUsersAppend(a: seq<Assignee>, b: seq<Assignee>)
    ensures PrepareUsers(a + b) == PrepareUsers(a) + PrepareUsers(b)
    decreases |b|
  {
    if |b| == 0 {
      assert a + b == a;
    } else {
      var b' := b[..|b| - 1];
      assert (a + b)[..|a + b| - 1] == a + b';
      assert (a + b)[|a + b| - 1] == b[|b| - 1];
      PrepareUsersAppend(a, b');
    }
  }

  /** A single assignee is offered, under its display name, exactly when it has a login. */
  lemma PrepareOne(x: Assignee)
    ensures PrepareUsers([x]) == if x.login != "" then [User(x.login, DisplayName(x))] else []
  {
    assert [x][..0] == [];
  }

  const MAX_SHOWN: nat := 10

  predicate MatchesSearch(u: User, search: string) {
    Contains(Lower(u.display), Lower(search))
  }

  /** Every user whose display contains the search, ignoring case, in order. */
  function MatchingUsers(users: seq<User>, search: string): (r: seq<User>)
    ensures |r| <= |users|
    ensures forall u :: u in r <==> u in users && MatchesSearch(u, search)
  {
    if |users| == 0 then []
    else
      var rest := MatchingUsers(users[1..], search);
      assert forall u :: u in users <==> u == users[0] || u in users[1..];
      if MatchesSearch(users[0], search) then [users[0]] + rest else rest
  }

  /** Matching a concatenation matches each part, in order; with the
      one-user case this fixes order and multiplicity. */
  lemma {:induction false} MatchingUsersAppend(a: seq<User>, b: seq<User>, search: string)
    ensures MatchingUsers(a + b, search) == MatchingUsers(a, search) + MatchingUsers(b, search)
    ensures MatchingUsers([], search) == []
    ensures |a| == 1 ==> MatchingUsers(a, search) == if MatchesSearch(a[0], search) then a else []
    decreases |a|
  {
    if |a| == 0 {
      assert a + b == b;
    } else {
      assert (a + b)[1..] == a[1..] + b;
      assert (a + b)[0] == a[0];
      MatchingUsersAppend(a[1..], b, search);
      if |a| == 1 {
        assert a[1..] == [];
      }
    }
  }

  /** Nothing until something is typed; then the first ten matches. */
  function Filtered(users: seq<User>, search: string): (r: seq<User>)
    ensures search == "" ==> r == []
    ensures |r| <= MAX_SHOWN
    ensures search != "" ==>
      var m := MatchingUsers(users, search);
      |r| == (if |m| < MAX_SHOWN then |m| else MAX_SHOWN) && r == m[..|r|]
  {
    if search == "" then []
    else
      var m := MatchingUsers(users, search);
      if |m| <= MAX_SHOWN then m else m[..MAX_SHOWN]
  }

  /** A cursor past the end moves to the last entry, or to 0 when there is none. */
  function Clamp(cursor: nat, n: nat): (c: nat)
    ensures cursor < n ==> c == cursor
    ensures cursor >= n ==> c == if n == 0 then 0 else n - 1
    ensures n > 0 ==> c < n
  {
    if cursor >= n then (if n - 1 > 0 then n - 1 else 0) else cursor
  }

  datatype Picker = Picker(search: string, cursor: nat, selected: seq<string>)

  /** The picker starts with an empty search and the current assignees selected. */
  function Start(current: seq<string>): Picker {
    Picker("", 0, current)
  }

  datatype Outcome = Cancelled | Chosen(users: seq<string>) | Continue(next: Picker)

  const BACKSPACE: string := "\U{7F}"
  const CTRL_H: string := "\U{8}"

  /** `str.isprintable` on one character: ASCII letters, digits,
      punctuation and space; the C0 and C1 controls, DEL and the
      no-break space are not. */
  predicate IsPrintable(c: char) {
    (32 <= c as int < 127) || c as int > 160
  }

  predicate IsBackspace(key: string) {
    key == BACKSPACE || key == CTRL_H
  }

  predicate IsUp(key: string) {
    key == UP_ARROW || key == "A"
  }

  predicate IsDown(key: string) {
    key == DOWN_ARROW || key == "B"
  }

  /** A key that extends the search: one printable character not claimed by an earlier branch. */
  predicate IsTyped(key: string) {
    && |key| == 1 && IsPrintable(key[0])
    && key != "q" && key != " " && key != "A" && key != "B"
  }

  /** One pass of the loop: the view is recomputed and the cursor clamped, then the key acts. */
  function Step(users: seq<User>, p: Picker, key: string): (out: Outcome)
    ensures out == Cancelled <==> key == "q" || key == ESC
    ensures out.Chosen? <==> IsEnterKey(key)
    ensures out.Chosen? ==> out.users == p.selected
    ensures out.Continue? && out.next.selected != p.selected ==>
      var filtered := Filtered(users, p.search);
      && key == " "
      && Clamp(p.cursor, |filtered|) < |filtered|
      && out.next.selected == Toggle(p.selected, filtered[Clamp(p.cursor, |filtered|)].username)
    ensures out.Continue? && out.next.search != p.search ==>
      && out.next.cursor == 0
      && ((IsBackspace(key) && |p.search| > 0 && out.next.search == p.search[..|p.search| - 1])
          || (IsTyped(key) && out.next.search == p.search + key))
    ensures out.Continue? && out.next.search == p.search && Filtered(users, p.search) != [] ==>
      out.next.cursor < |Filtered(users, p.search)|
    ensures key == " " ==>
      var filtered := Filtered(users, p.search);
      var c := Clamp(p.cursor, |filtered|);
      out == Continue(p.(cursor := c, selected := if filtered == [] then p.selected else Toggle(p.selected, filtered[c].username)))
    ensures IsTyped(key) ==> out == Continue(p.(search := p.search + key, cursor := 0))
    ensures IsBackspace(key) && p.search != "" ==> out == Continue(p.(search := p.search[..|p.search| - 1], cursor := 0))
    ensures IsBackspace(key) && p.search == "" ==> out == Continue(p.(cursor := Clamp(p.cursor, |Filtered(users, p.search)|)))
    ensures (&& key != "q" && key != ESC && !IsEnterKey(key) && !IsBackspace(key) && !IsUp(key) && !IsDown(key)
             && !(|key| == 1 && IsPrintable(key[0]))) ==>
      out == Continue(p.(cursor := Clamp(p.cursor, |Filtered(users, p.search)|)))
  {
    var filtered := Filtered(users, p.search);
    var cursor := Clamp(p.cursor, |filtered|);
    var p := p.(cursor := cursor);
    if key == "q" || key == ESC then Cancelled
    else if key == "\r" || key == "\n" then Chosen(p.selected)
    else if key == " " then
      if |filtered| > 0 && cursor < |filtered| then
        Continue(p.(selected := Toggle(p.selected, filtered[cursor].username)))
      else Continue(p)
    else if IsBackspace(key) then
      if p.search != "" then Continue(p.(search := p.search[..|p.search| - 1], cursor := 0)) else Continue(p)
    else if IsUp(key) then
      if |filtered| > 0 then Continue(p.(cursor := HandleArrowNavigation(UP_ARROW, cursor, |filtered|))) else Continue(p)
    else if IsDown(key) then
      if |filtered| > 0 then Continue(p.(cursor := HandleArrowNavigation(DOWN_ARROW, cursor, |filtered|))) else Continue(p)
    else if |key| == 1 && IsPrintable(key[0]) then Continue(p.(search := p.search + key, cursor := 0))
    else Continue(p)
  }

  /** The picker run over a sequence of key presses; `Continue` when the keys run out. */
  function Run(users: seq<User>, p: Picker, keys: seq<string>): Outcome
    decreases |keys|
  {
    if |keys| == 0 then Continue(p)
    else
      match Step(users, p, keys[0])
      case Continue(next) => Run(users, next, keys[1..])
      case done => done
  }

  // ---------------------------------------------------------------------
  // Properties
  // ---------------------------------------------------------------------

  /** Enter straight away keeps the current assignees. */
  lemma EnterKeepsCurrent(users: seq<User>, current: seq<string>)
    ensures Step(users, Start(current), "\r") == Chosen(current)
  {
  }

  /** Typing a character and deleting it restores the search. */
  lemma TypeThenBackspace(users: seq<User>, p: Picker, key: string)
    requires IsTyped(key)
    ensures Step(users, p, key).Continue?
    ensures Step(users, Step(users, p, key).next, BACKSPACE).next.search == p.search
  {
    var q := Step(users, p, key).next;
    assert q.search == p.search + key;
    assert (p.search + key)[..|p.search|] == p.search;
  }

  /** The keys read as arrows and commands can never enter the search. */
  lemma ReservedKeysNotTyped(users: seq<User>, p: Picker, key: string)
    requires key in ["A", "B", " "]
    ensures Step(users, p, key).Continue? && Step(users, p, key).next.search == p.search
  {
  }

  /** Space twice on the same entry, with the view unchanged, restores an
      unselected user's state. */
  lemma SpaceTwiceRestores(users: seq<User>, p: Picker)
    requires p.cursor < |Filtered(users, p.search)|
    requires Filtered(users, p.search)[p.cursor].username !in p.selected
    ensures Step(users, p, " ").Continue?
    ensures Step(users, Step(users, p, " ").next, " ").next.selected == p.selected
  {
    var filtered := Filtered(users, p.search);
    var x := filtered[p.cursor].username;
    var q := Step(users, p, " ").next;
    assert q == p.(selected := Toggle(p.selected, x));
    assert Step(users, q, " ").next == q.(selected := Toggle(q.selected, x));
    ToggleTwiceRestores(p.selected, x);
  }

  /** Up and down (arrow or letter) move the cursor cyclically through a
      non-empty view and leave search and selection alone; with nothing
      shown they do nothing. */
  lemma ArrowsMoveCursor(users: seq<User>, p: Picker, key: string)
    requires IsUp(key) || IsDown(key)
    requires p.cursor < |Filtered(users, p.search)| || Filtered(users, p.search) == []
    ensures var n := |Filtered(users, p.search)|;
      var out := Step(users, p, key);
      && out.Continue? && out.next.search == p.search && out.next.selected == p.selected
      && (n == 0 ==> out.next.cursor == 0)
      && (n > 0 && IsUp(key) ==> out.next.cursor == if p.cursor == 0 then n - 1 else p.cursor - 1)
      && (n > 0 && IsDown(key) ==> out.next.cursor == if p.cursor == n - 1 then 0 else p.cursor + 1)
  {
  }

  /** Only users that were shown can join the selection: everything
      selected is either a current assignee or a listed user's login. */
  predicate SelectionFrom(selected: seq<string>, current: seq<string>, users: seq<User>) {
    forall k :: 0 <= k < |selected| ==> selected[k] in current || exists u :: u in users && u.username == selected[k]
  }

  lemma StepKeepsSelectionFrom(users: seq<User>, current: seq<string>, p: Picker, key: string)
    requires SelectionFrom(p.selected, current, users)
    ensures var out := Step(users, p, key);
      out.Continue? ==> SelectionFrom(out.next.selected, current, users)
  {
    var out := Step(users, p, key);
    if out.Continue? && out.next.selected != p.selected {
      var filtered := Filtered(users, p.search);
      var c := Clamp(p.cursor, |filtered|);
      var x := filtered[c].username;
      assert filtered[c] in MatchingUsers(users, p.search);
      forall k | 0 <= k < |out.next.selected|
        ensures out.next.selected[k] in current || exists u :: u in users && u.username == out.next.selected[k]
      {
        var y := out.next.selected[k];
        assert y in out.next.selected;
        if y != x {
          var m :| 0 <= m < |p.selected| && p.selected[m] == y;
        }
      }
    }
  }

  lemma {:induction false} RunKeepsSelectionFrom(users: seq<User>, current: seq<string>, p: Picker, keys: seq<string>)
    requires SelectionFrom(p.selected, current, users)
    ensures var out := Run(users, p, keys);
      && (out.Continue? ==> SelectionFrom(out.next.selected, current, users))
      && (out.Chosen? ==> SelectionFrom(out.users, current, users))
    decreases |keys|
  {
    if |keys| > 0 {
      StepKeepsSelectionFrom(users, current, p, keys[0]);
      var out := Step(users, p, keys[0]);
      if out.Continue? {
        RunKeepsSelectionFrom(users, current, out.next, keys[1..]);
      }
    }
  }

  /** Whatever is typed, the picker returns only current assignees and listed users. */
  lemma ChosenUsersWereOffered(assignees: seq<Assignee>, current: seq<string>, keys: seq<string>)
    ensures var users := PrepareUsers(assignees);
      var out := Run(users, Start(current), keys);
      out.Chosen? ==> SelectionFrom(out.users, current, users)
  {
    RunKeepsSelectionFrom(PrepareUsers(assignees), current, Start(current), keys);
  }
}

=== FILE: branches.dfy ===
/** Conversion between task keys and feature-branch names
    (`get_feature_branch_name`, `extract_task_key_from_branch` in client.py
    and clients/git.py) and the guard order of `checkout_feature_branch`. */
module Branches {
  import opened Results
  import opened Text

  const FEATURE_PREFIX: string := "feature/"

  /** `f"feature/{task_key.lower()}"`. */
  function FeatureBranchName(taskKey: string): (b: string)
    ensures StartsWith(b, FEATURE_PREFIX)
    ensures |b| == |FEATURE_PREFIX| + |taskKey|
    ensures Lower(b) == b && Upper(b[8..]) == Upper(taskKey)
  {
    UpperOfLower(taskKey);
    LowerOfLower(taskKey);
    LowerAppend(FEATURE_PREFIX, Lower(taskKey));
    FEATURE_PREFIX + Lower(taskKey)
  }

  /** The upper-cased remainder after "feature/", or "" for any other branch. */
  function ExtractTaskKeyFromBranch(branch: string): (key: string)
    ensures !StartsWith(branch, FEATURE_PREFIX) ==> key == ""
    ensures StartsWith(branch, FEATURE_PREFIX) ==> |key| == |branch| - |FEATURE_PREFIX|
    ensures StartsWith(branch, FEATURE_PREFIX) ==> Upper(key) == key && Lower(key) == Lower(branch[8..])
  {
    if StartsWith(branch, FEATURE_PREFIX) then
      LowerOfUpper(branch[8..]);
      UpperOfUpper(branch[8..]);
      Upper(branch[8..])
    else ""
  }

  /** Extracting the key from the branch made for `k` gives `k` in upper case. */
  lemma BranchRoundTrip(k: string)
    ensures ExtractTaskKeyFromBranch(FeatureBranchName(k)) == Upper(k)
  {
    assert FeatureBranchName(k)[8..] == Lower(k);
    UpperOfLower(k);
  }

  /** The branch made for the key of a feature branch is that branch in lower case. */
  lemma KeyRoundTrip(b: string)
    requires StartsWith(b, FEATURE_PREFIX)
    ensures FeatureBranchName(ExtractTaskKeyFromBranch(b)) == Lower(b)
  {
    assert b == FEATURE_PREFIX + b[8..];
    LowerOfUpper(b[8..]);
    LowerAppend(FEATURE_PREFIX, b[8..]);
  }

  /** The bare prefix names no task. */
  lemma BarePrefixHasNoKey()
    ensures ExtractTaskKeyFromBranch(FEATURE_PREFIX) == ""
  {
  }

  /** The outcomes of the git calls `checkout_feature_branch` makes:
      the preconditions, `git checkout <branch>`, and, when the branch is
      missing, updating develop and `git checkout -b <branch> develop`. */
  datatype GitState = GitState(
    inRepository: bool,
    workingTreeClean: bool,
    branchExists: bool,
    developUpdates: bool,
    createSucceeds: bool)

  /** `checkout_branch(name, create_new=True)`: an existing branch is
      checked out; otherwise develop is updated, raising when that fails,
      and a failed branch creation is reported as `False`. */
  predicate CheckedOut(git: GitState) {
    git.branchExists || (git.developUpdates && git.createSucceeds)
  }

  const CHECKOUT_FAILED: string := "Failed to checkout branch: "

  /** `checkout_feature_branch`: the key guard comes first, then the git
      preconditions, then the checkout, whose failure is re-wrapped by the
      surrounding `except Exception`. */
  function CheckoutFeatureBranch(key: Option<string>, git: GitState): (r: Result<string, string>)
    ensures key.GetOr("") == "" ==> r == Failure("No task key found")
    ensures r.Success? <==> key.GetOr("") != "" && git.inRepository && git.workingTreeClean && CheckedOut(git)
    ensures r.Success? ==> ExtractTaskKeyFromBranch(r.value) == Upper(key.value)
    ensures key.GetOr("") != "" && git.inRepository && git.workingTreeClean && !git.branchExists ==>
      && (!git.developUpdates ==> r == Failure(CHECKOUT_FAILED + "Could not update develop branch - ensure it exists"))
      && (git.developUpdates && !git.createSucceeds ==> r == Failure(CHECKOUT_FAILED + "Failed to checkout feature branch"))
  {
    var k := key.GetOr("");
    if k == "" then Failure("No task key found")
    else
      var branch := FeatureBranchName(k);
      if !git.inRepository then Failure("Not in a git repository")
      else if !git.workingTreeClean then Failure("Please commit or stash changes before switching branches")
      else if !git.branchExists && !git.developUpdates then
        Failure(CHECKOUT_FAILED + "Could not update develop branch - ensure it exists")
      else if !CheckedOut(git) then Failure(CHECKOUT_FAILED + "Failed to checkout feature branch")
      else
        BranchRoundTrip(k);
        Success(branch)
  }
}

=== FILE: diffstats.dfy ===
/** The text-parsing half of `get_diff_stats` (client.py): the summary
    line of `git diff --shortstat` and the per-file lines of
    `git diff --numstat`. Running git is left to the caller, who passes
    each command's output, or `None` when the command failed. */
module DiffStats {
  import opened Results
  import opened Text

  datatype FileStat = FileStat(file: string, added: nat, removed: nat)

  datatype Counts = Counts(filesChanged: int, insertions: int, deletions: int)

  datatype DiffStats = DiffStats(counts: Counts, fileList: seq<FileStat>)

  const NoCounts: Counts := Counts(0, 0, 0)

  const EmptyStats: DiffStats := DiffStats(NoCounts, [])

  // ---------------------------------------------------------------------
  // --shortstat: "X files changed, Y insertions(+), Z deletions(-)"
  // ---------------------------------------------------------------------

  datatype Category = FilesPart | InsertionsPart | DeletionsPart | OtherPart

  /** The `if "file" ... elif "insertion" ... elif "deletion"` chain. */
  function CategoryOf(part: string): Category {
    if Contains(part, "file") then FilesPart
    else if Contains(part, "insertion") then InsertionsPart
    else if Contains(part, "deletion") then DeletionsPart
    else OtherPart
  }

  /** One iteration of the loop: the number in front of a recognised part
      replaces that category's count; `int()` failing is an error. */
  function ApplyPart(c: Counts, part: string): Option<Counts> {
    match CategoryOf(part)
    case OtherPart => Some(c)
    case FilesPart =>
      (match ParseInt(FirstWord(part)) case None => None case Some(n) => Some(c.(filesChanged := n)))
    case InsertionsPart =>
      (match ParseInt(FirstWord(part)) case None => None case Some(n) => Some(c.(insertions := n)))
    case DeletionsPart =>
      (match ParseInt(FirstWord(part)) case None => None case Some(n) => Some(c.(deletions := n)))
  }

  /** The loop over the parts, in order. */
  function ApplyParts(c: Counts, parts: seq<string>): Option<Counts> {
    if |parts| == 0 then Some(c)
    else
      match ApplyParts(c, parts[..|parts| - 1])
      case None => None
      case Some(c') => ApplyPart(c', parts[|parts| - 1])
  }

  /** Index of the last part of the given category, or -1. */
  function LastOfCategory(parts: seq<string>, cat: Category): (k: int)
    ensures -1 <= k < |parts|
    ensures k >= 0 ==> CategoryOf(parts[k]) == cat
    ensures forall j :: k < j < |parts| ==> CategoryOf(parts[j]) != cat
  {
    if |parts| == 0 then -1
    else if CategoryOf(parts[|parts| - 1]) == cat then |parts| - 1
    else LastOfCategory(parts[..|parts| - 1], cat)
  }

  /** Every recognised part starts with a number `int()` accepts. */
  predicate NumbersParse(parts: seq<string>) {
    forall i :: 0 <= i < |parts| && CategoryOf(parts[i]) != OtherPart ==> ParseInt(FirstWord(parts[i])).Some?
  }

  /** The count a category ends with: that of its last part, else the starting value. */
  function FinalCount(start: int, parts: seq<string>, cat: Category): int {
    var k := LastOfCategory(parts, cat);
    if k < 0 then start else ParseInt(FirstWord(parts[k])).GetOr(0)
  }

  lemma NumbersParseSnoc(parts: seq<string>)
    requires |parts| > 0
    ensures NumbersParse(parts) <==>
      && NumbersParse(parts[..|parts| - 1])
      && (CategoryOf(parts[|parts| - 1]) != OtherPart ==> ParseInt(FirstWord(parts[|parts| - 1])).Some?)
  {
    var init := parts[..|parts| - 1];
    assert forall i :: 0 <= i < |init| ==> init[i] == parts[i];
  }

  lemma FinalCountSnoc(start: int, parts: seq<string>, cat: Category)
    requires |parts| > 0
    ensures FinalCount(start, parts, cat) ==
      if CategoryOf(parts[|parts| - 1]) == cat then ParseInt(FirstWord(parts[|parts| - 1])).GetOr(0)
      else FinalCount(start, parts[..|parts| - 1], cat)
  {
    var init := parts[..|parts| - 1];
    var k := LastOfCategory(init, cat);
    assert k >= 0 ==> init[k] == parts[k];
  }

  lemma {:induction false} ApplyPartsMeaning(c: Counts, parts: seq<string>)
    ensures ApplyParts(c, parts).Some? <==> NumbersParse(parts)
    ensures ApplyParts(c, parts).Some? ==> ApplyParts(c, parts).value == Counts(
      FinalCount(c.filesChanged, parts, FilesPart),
      FinalCount(c.insertions, parts, InsertionsPart),
      FinalCount(c.deletions, parts, DeletionsPart))
  {
    if |parts| > 0 {
      ApplyPartsMeaning(c, parts[..|parts| - 1]);
      NumbersParseSnoc(parts);
      FinalCountSnoc(c.filesChanged, parts, FilesPart);
      FinalCountSnoc(c.insertions, parts, InsertionsPart);
      FinalCountSnoc(c.deletions, parts, DeletionsPart);
    }
  }

  /** Parsing of the `--shortstat` output: the stripped text is split at
      ", " and each part is applied in turn; absent categories stay 0. */
  function ParseShortstat(out: string): (r: Option<Counts>)
    ensures Strip(out) == "" ==> r == Some(NoCounts)
    ensures Strip(out) != "" ==> (r.Some? <==> NumbersParse(Split(Strip(out), ", ")))
    ensures Strip(out) != "" && r.Some? ==>
      var parts := Split(Strip(out), ", ");
      r.value == Counts(FinalCount(0, parts, FilesPart), FinalCount(0, parts, InsertionsPart), FinalCount(0, parts, DeletionsPart))
  {
    var s := Strip(out);
    if s == "" then Some(NoCounts)
    else
      ApplyPartsMeaning(NoCounts, Split(s, ", "));
      ApplyParts(NoCounts, Split(s, ", "))
  }

  // ---------------------------------------------------------------------
  // --numstat: one "added<TAB>removed<TAB>file" line per file
  // ---------------------------------------------------------------------

  /** `int(x) if x.isdigit() else 0` after mapping git's "-" (binary file) to "0". */
  function CountField(field: string): nat {
    var v := if field == "-" then "0" else field;
    if IsDigits(v) then DigitsValue(v) else 0
  }

  function ParseNumstatLine(line: string): Option<FileStat> {
    var fields := Split(line, "\t");
    if |fields| >= 3 then Some(FileStat(fields[2], CountField(fields[0]), CountField(fields[1]))) else None
  }

  /** One entry per non-empty line that has at least three tab-separated fields, in line order. */
  function ParseNumstatLines(lines: seq<string>): (r: seq<FileStat>)
    ensures |r| <= |lines|
    ensures |r| == |lines| <==> forall i :: 0 <= i < |lines| ==> lines[i] != "" && ParseNumstatLine(lines[i]).Some?
    ensures forall k :: 0 <= k < |r| ==>
      exists i :: 0 <= i < |lines| && lines[i] != "" && ParseNumstatLine(lines[i]) == Some(r[k])
  {
    if |lines| == 0 then []
    else
      var rest := ParseNumstatLines(lines[1..]);
      if lines[0] != "" && ParseNumstatLine(lines[0]).Some? then [ParseNumstatLine(lines[0]).value] + rest else rest
  }

  function ParseNumstat(out: string): seq<FileStat> {
    var s := Strip(out);
    if s == "" then [] else ParseNumstatLines(Split(s, "\n"))
  }

  /** `get_diff_stats` given the two command outputs (`None`: the command
      failed). A failed command yields all zeros; a recognised summary part
      whose number does not parse raises, which is the `Failure` here. */
  function GetDiffStats(shortstat: Option<string>, numstat: Option<string>): (r: Result<DiffStats, string>)
    ensures shortstat.None? || numstat.None? ==> r == Success(EmptyStats)
    ensures shortstat.Some? && numstat.Some? ==>
      (r.Success? <==> ParseShortstat(shortstat.value).Some?)
    ensures r.Success? && shortstat.Some? && numstat.Some? ==> r.value.fileList == ParseNumstat(numstat.value)
    ensures r.Success? && shortstat.Some? && numstat.Some? ==> r.value.counts == ParseShortstat(shortstat.value).value
  {
    if shortstat.None? || numstat.None? then Success(EmptyStats)
    else
      match ParseShortstat(shortstat.value)
      case None => Failure("ValueError")
      case Some(c) => Success(DiffStats(c, ParseNumstat(numstat.value)))
  }

  // ---------------------------------------------------------------------
  // Round trips with the text git prints
  // ---------------------------------------------------------------------

  function Plural(n: nat, word: string): string {
    if n == 1 then word else word + "s"
  }

  /** The three parts of a summary line. */
  function FilesPartText(n: nat): string { NatToString(n) + " " + FilesWords(n) }
  function InsertionsPartText(n: nat): string { NatToString(n) + " " + InsertionsWords(n) }
  function DeletionsPartText(n: nat): string { NatToString(n) + " " + DeletionsWords(n) }

  function FilesWords(n: nat): string { Plural(n, "file") + " changed" }
  function InsertionsWords(n: nat): string { Plural(n, "insertion") + "(+)" }
  function DeletionsWords(n: nat): string { Plural(n, "deletion") + "(-)" }

  /** The summary line in the format the source documents. */
  function ShortstatLine(files: nat, insertions: nat, deletions: nat): string {
    FilesPartText(files) + ", " + InsertionsPartText(insertions) + ", " + DeletionsPartText(deletions)
  }

  function NumstatLine(e: FileStat): string {
    NatToString(e.added) + "\t" + NatToString(e.removed) + "\t" + e.file
  }

  /** One numstat line per entry, in order. */
  function NumstatLines(es: seq<FileStat>): (lines: seq<string>)
    ensures |lines| == |es|
    ensures forall i :: 0 <= i < |es| ==> lines[i] == NumstatLine(es[i])
  {
    if |es| == 0 then [] else [NumstatLine(es[0])] + NumstatLines(es[1..])
  }

  function NumstatText(es: seq<FileStat>): string {
    Join("\n", NumstatLines(es))
  }

  /** A file name git can print on one numstat line and that survives `strip()`. */
  predicate PrintableName(f: string) {
    && |f| > 0
    && '\t' !in f && '\n' !in f
    && !IsSpace(f[|f| - 1])
  }

  lemma {:induction false} MissingCharNotContained(s: string, t: string, c: char)
    requires c in t && c !in s
    ensures !Contains(s, t)
    decreases |s|
  {
    if |s| > 0 {
      assert forall x :: x in s[1..] ==> x in s;
      MissingCharNotContained(s[1..], t, c);
    }
  }

  lemma {:induction false} SplitAfterCommaFreePiece(x: string, rest: string)
    requires ',' !in x
    ensures Split(x + ", " + rest, ", ") == [x] + Split(rest, ", ")
    decreases |x|
  {
    var s := x + ", " + rest;
    if |x| == 0 {
      assert s[..2] == ", ";
      assert s[2..] == rest;
    } else {
      assert s[..2] != ", " by { assert s[0] == x[0]; assert x[0] in x; }
      assert s[1..] == x[1..] + ", " + rest;
      assert forall y :: y in x[1..] ==> y in x;
      SplitAfterCommaFreePiece(x[1..], rest);
      assert [s[0]] + x[1..] == x;
    }
  }

  lemma {:induction false} SplitCommaFree(x: string)
    requires ',' !in x
    ensures Split(x, ", ") == [x]
    decreases |x|
  {
    if |x| >= 2 {
      assert x[..2] != ", " by { assert x[0] in x; }
      assert forall y :: y in x[1..] ==> y in x;
      SplitCommaFree(x[1..]);
      assert [x[0]] + x[1..] == x;
    }
  }

  lemma {:induction false} TakeWordOfNumber(d: string, rest: string)
    requires IsDigits(d)
    ensures TakeWord(d + " " + rest) == d
    decreases |d|
  {
    var s := d + " " + rest;
    assert !IsSpace(s[0]);
    if |d| == 1 {
      assert s[1..] == " " + rest;
    } else {
      assert s[1..] == d[1..] + " " + rest;
      TakeWordOfNumber(d[1..], rest);
      assert [s[0]] + d[1..] == d;
    }
  }

  /** A "<number> <words>" part is read as that number. */
  lemma NumberOfPart(n: nat, words: string)
    ensures ParseInt(FirstWord(NatToString(n) + " " + words)) == Some(n)
  {
    var d := NatToString(n);
    var s := d + " " + words;
    assert !IsSpace(s[0]);
    assert StripLeft(s) == s;
    TakeWordOfNumber(d, words);
    ParseIntOfNat(n);
  }

  lemma NoLettersInNumber(n: nat, c: char)
    requires !IsDigit(c)
    ensures c !in NatToString(n)
  {
  }

  /** The letters that tell the parts apart are missing from the later parts. */
  lemma PartsLackLetters(n: nat)
    ensures 'f' !in InsertionsPartText(n)
    ensures 'f' !in DeletionsPartText(n) && 'r' !in DeletionsPartText(n)
  {
    NoLettersInNumber(n, 'f');
    NoLettersInNumber(n, 'r');
    assert 'f' !in Plural(n, "insertion");
    assert 'f' !in Plural(n, "deletion") && 'r' !in Plural(n, "deletion");
  }

  /** Containment of a word that follows a number and a space. */
  lemma WordAfterNumber(n: nat, words: string, w: string)
    requires StartsWith(words, w)
    ensures Contains(NatToString(n) + " " + words, w)
  {
    assert Contains(words, w);
    ContainsInSuffix(NatToString(n) + " ", words, w);
  }

  lemma PluralStartsWithWord(n: nat, word: string, rest: string)
    ensures StartsWith(Plural(n, word) + rest, word)
  {
    assert (Plural(n, word) + rest)[..|word|] == word;
  }

  /** The word of each part follows its number. */
  lemma PartsHaveWords(n: nat)
    ensures Contains(FilesPartText(n), "file")
    ensures Contains(InsertionsPartText(n), "insertion")
    ensures Contains(DeletionsPartText(n), "deletion")
  {
    PluralStartsWithWord(n, "file", " changed");
    WordAfterNumber(n, FilesWords(n), "file");
    PluralStartsWithWord(n, "insertion", "(+)");
    WordAfterNumber(n, InsertionsWords(n), "insertion");
    PluralStartsWithWord(n, "deletion", "(-)");
    WordAfterNumber(n, DeletionsWords(n), "deletion");
  }

  lemma CategoryOfFilesPart(n: nat)
    ensures CategoryOf(FilesPartText(n)) == FilesPart
  {
    PartsHaveWords(n);
  }

  lemma CategoryOfInsertionsPart(n: nat)
    ensures CategoryOf(InsertionsPartText(n)) == InsertionsPart
  {
    var p := InsertionsPartText(n);
    PartsHaveWords(n);
    PartsLackLetters(n);
    MissingCharNotContained(p, "file", 'f');
  }

  lemma CategoryOfDeletionsPart(n: nat)
    ensures CategoryOf(DeletionsPartText(n)) == DeletionsPart
  {
    var p := DeletionsPartText(n);
    PartsHaveWords(n);
    PartsLackLetters(n);
    MissingCharNotContained(p, "file", 'f');
    MissingCharNotContained(p, "insertion", 'r');
  }

  lemma StripUnpadded(s: string)
    requires |s| > 0 && !IsSpace(s[0]) && !IsSpace(s[|s| - 1])
    ensures Strip(s) == s
  {
    assert StripLeft(s) == s;
  }

  lemma SplitThreeCommaFree(a: string, b: string, c: string)
    requires ',' !in a && ',' !in b && ',' !in c
    ensures Split(a + ", " + b + ", " + c, ", ") == [a, b, c]
  {
    assert a + ", " + b + ", " + c == a + ", " + (b + ", " + c);
    SplitAfterCommaFreePiece(a, b + ", " + c);
    SplitAfterCommaFreePiece(b, c);
    SplitCommaFree(c);
  }

  lemma SummaryLineParts(files: nat, insertions: nat, deletions: nat)
    ensures Strip(ShortstatLine(files, insertions, deletions)) == ShortstatLine(files, insertions, deletions)
    ensures Split(ShortstatLine(files, insertions, deletions), ", ")
      == [FilesPartText(files), InsertionsPartText(insertions), DeletionsPartText(deletions)]
  {
    var a := FilesPartText(files);
    var b := InsertionsPartText(insertions);
    var c := DeletionsPartText(deletions);
    var line := ShortstatLine(files, insertions, deletions);
    assert line[0] == NatToString(files)[0];
    assert line[|line| - 1] == c[|c| - 1] == ')';
    StripUnpadded(line);
    PartsLackComma(files, insertions, deletions);
    SplitThreeCommaFree(a, b, c);
  }

  lemma PartsLackComma(files: nat, insertions: nat, deletions: nat)
    ensures ',' !in FilesPartText(files) && ',' !in InsertionsPartText(insertions) && ',' !in DeletionsPartText(deletions)
  {
    NoLettersInNumber(files, ',');
    NoLettersInNumber(insertions, ',');
    NoLettersInNumber(deletions, ',');
    assert ',' !in " " + Plural(files, "file") + " changed";
    assert ',' !in " " + Plural(insertions, "insertion") + "(+)";
    assert ',' !in " " + Plural(deletions, "deletion") + "(-)";
  }

  lemma ApplyFilesPart(c: Counts, n: nat)
    ensures ApplyPart(c, FilesPartText(n)) == Some(c.(filesChanged := n))
  {
    CategoryOfFilesPart(n);
    NumberOfPart(n, FilesWords(n));
  }

  lemma ApplyInsertionsPart(c: Counts, n: nat)
    ensures ApplyPart(c, InsertionsPartText(n)) == Some(c.(insertions := n))
  {
    CategoryOfInsertionsPart(n);
    NumberOfPart(n, InsertionsWords(n));
  }

  lemma ApplyDeletionsPart(c: Counts, n: nat)
    ensures ApplyPart(c, DeletionsPartText(n)) == Some(c.(deletions := n))
  {
    CategoryOfDeletionsPart(n);
    NumberOfPart(n, DeletionsWords(n));
  }

  /** Parsing the summary line of `files`, `insertions`, `deletions` gives those counts. */
  lemma ShortstatRoundTrip(files: nat, insertions: nat, deletions: nat)
    ensures ParseShortstat(ShortstatLine(files, insertions, deletions)) == Some(Counts(files, insertions, deletions))
  {
    var a := FilesPartText(files);
    var b := InsertionsPartText(insertions);
    var c := DeletionsPartText(deletions);
    SummaryLineParts(files, insertions, deletions);
    ApplyFilesPart(NoCounts, files);
    ApplyInsertionsPart(Counts(files, 0, 0), insertions);
    ApplyDeletionsPart(Counts(files, insertions, 0), deletions);
    assert [a, b, c][..2] == [a, b] && [a, b][..1] == [a] && [a][..0] == [];
    assert ApplyParts(NoCounts, [a]) == Some(Counts(files, 0, 0));
    assert ApplyParts(NoCounts, [a, b]) == Some(Counts(files, insertions, 0));
    assert ApplyParts(NoCounts, [a, b, c]) == Some(Counts(files, insertions, deletions));
  }

  lemma CountFieldOfNat(n: nat)
    ensures CountField(NatToString(n)) == n
  {
    NatToStringRoundTrip(n);
    assert NatToString(n) != "-" by {
      assert IsDigit(NatToString(n)[0]);
    }
  }

  lemma JoinThree(sep: string, a: string, b: string, c: string)
    ensures Join(sep, [a, b, c]) == a + sep + b + sep + c
  {
    assert [a, b, c][1..] == [b, c];
    assert [b, c][1..] == [c];
    assert Join(sep, [b, c]) == b + sep + c;
  }

  lemma NumstatLineFields(e: FileStat)
    requires '\t' !in e.file
    ensures Split(NumstatLine(e), "\t") == [NatToString(e.added), NatToString(e.removed), e.file]
  {
    var a := NatToString(e.added);
    var r := NatToString(e.removed);
    NoLettersInNumber(e.added, '\t');
    NoLettersInNumber(e.removed, '\t');
    JoinThree("\t", a, r, e.file);
    SplitJoin([a, r, e.file], '\t');
  }

  lemma NumstatLineRoundTrip(e: FileStat)
    requires '\t' !in e.file
    ensures ParseNumstatLine(NumstatLine(e)) == Some(e)
  {
    NumstatLineFields(e);
    CountFieldOfNat(e.added);
    CountFieldOfNat(e.removed);
  }

  /** A non-empty line that parses contributes its entry in front of the rest. */
  lemma ParseNumstatLinesCons(line: string, lines: seq<string>)
    requires line != "" && ParseNumstatLine(line).Some?
    ensures ParseNumstatLines([line] + lines) == [ParseNumstatLine(line).value] + ParseNumstatLines(lines)
  {
    assert ([line] + lines)[1..] == lines;
  }

  /** The entries of a concatenation of lines are those of each part, in
      order; with the one-line case this says the parser is a per-line
      filter-map. */
  lemma {:induction false} ParseNumstatLinesAppend(a: seq<string>, b: seq<string>)
    ensures ParseNumstatLines(a + b) == ParseNumstatLines(a) + ParseNumstatLines(b)
    decreases |a|
  {
    if |a| == 0 {
      assert a + b == b;
    } else {
      assert (a + b)[1..] == a[1..] + b;
      assert (a + b)[0] == a[0];
      ParseNumstatLinesAppend(a[1..], b);
    }
  }

  /** One line gives its entry when it is non-empty and has three tab-separated fields, and nothing otherwise. */
  lemma ParseNumstatOneLine(line: string)
    ensures ParseNumstatLines([line]) ==
      if line != "" && |Split(line, "\t")| >= 3 then
        var f := Split(line, "\t");
        [FileStat(f[2], CountField(f[0]), CountField(f[1]))]
      else []
  {
    assert [line][1..] == [];
  }

  lemma {:induction false} ParseRenderedLines(es: seq<FileStat>)
    requires forall i :: 0 <= i < |es| ==> '\t' !in es[i].file
    ensures ParseNumstatLines(NumstatLines(es)) == es
  {
    if |es| > 0 {
      var line := NumstatLine(es[0]);
      NumstatLineRoundTrip(es[0]);
      assert |line| > 0 by {
        assert |NatToString(es[0].added)| > 0;
      }
      ParseNumstatLinesCons(line, NumstatLines(es[1..]));
      ParseRenderedLines(es[1..]);
      assert [es[0]] + es[1..] == es;
    }
  }

  lemma {:induction false} JoinEndsWithLast(sep: string, xs: seq<string>)
    requires |xs| > 0 && |xs[|xs| - 1]| > 0
    ensures |Join(sep, xs)| > 0 && Join(sep, xs)[|Join(sep, xs)| - 1] == xs[|xs| - 1][|xs[|xs| - 1]| - 1]
  {
    if |xs| > 1 {
      JoinEndsWithLast(sep, xs[1..]);
    }
  }

  /** Parsing the numstat text of entries with printable names gives those entries. */
  lemma NumstatRoundTrip(es: seq<FileStat>)
    requires forall i :: 0 <= i < |es| ==> PrintableName(es[i].file)
    ensures ParseNumstat(NumstatText(es)) == es
  {
    var lines := NumstatLines(es);
    var text := NumstatText(es);
    if |es| > 0 {
      forall i | 0 <= i < |lines|
        ensures '\n' !in lines[i]
      {
        NoLettersInNumber(es[i].added, '\n');
        NoLettersInNumber(es[i].removed, '\n');
      }
      var d := NatToString(es[0].added);
      assert text[0] == d[0];
      assert !IsSpace(text[0]);
      assert StripLeft(text) == text;
      var f := es[|es| - 1].file;
      assert lines[|es| - 1][|lines[|es| - 1]| - 1] == f[|f| - 1];
      JoinEndsWithLast("\n", lines);
      assert StripRight(text) == text;
      SplitJoin(lines, '\n');
      ParseRenderedLines(es);
    }
  }

  /** A binary file, reported by git with "-" counts, is listed with zero counts. */
  lemma BinaryFileCountsZero(f: string)
    requires '\t' !in f
    ensures ParseNumstatLine("-\t-\t" + f) == Some(FileStat(f, 0, 0))
  {
    assert ["-", "-", f][1..] == ["-", f];
    assert ["-", f][1..] == [f];
    assert Join("\t", ["-", f]) == "-\t" + f;
    assert Join("\t", ["-", "-", f]) == "-\t-\t" + f;
    SplitJoin(["-", "-", f], '\t');
    assert IsDigits("0") && DigitsValue("0") == 0;
  }
}

=== FILE: interactive.dfy ===
/** The transition logic of the interactive screens in
    commands/interactive.py: the task list, the per-task action menu and
    the component picker. Drawing, waiting and the actions themselves are
    left to the caller; each step reports what it would do. */
module Interactive {
  import opened Results
  import opened Keyboard
  import opened Tasks
  import opened Selection

  // ---------------------------------------------------------------------
  // The action menu (`show_task_action_menu`)
  // ---------------------------------------------------------------------

  datatype Action = OpenPr | OpenInBrowser | SwitchBranch | CreatePr | Back

  function ActionLabel(a: Action): string {
    match a
    case OpenPr => "\U{1F517} Open PR"
    case OpenInBrowser => "\U{1F310} Open task in browser"
    case SwitchBranch => "\U{1F500} Switch to branch"
    case CreatePr => "\U{1F4DD} Create PR"
    case Back => "\U{2190} Back to task list"
  }

  /** The two base actions, then the pull-request action (first when one
      exists, appended otherwise), then "back". */
  function ActionMenu(hasPr: bool): (actions: seq<Action>)
    ensures |actions| == 4 && actions[3] == Back
    ensures OpenPr in actions <==> hasPr
    ensures CreatePr in actions <==> !hasPr
    ensures hasPr <==> actions[0] == OpenPr
    ensures forall i, j :: 0 <= i < j < |actions| ==> actions[i] != actions[j]
    ensures exists k :: 0 <= k < 2 && actions[k] == OpenInBrowser && actions[k + 1] == SwitchBranch
  {
    var base := [OpenInBrowser, SwitchBranch];
    var withPr := if hasPr then [OpenPr] + base else base + [CreatePr];
    var actions := withPr + [Back];
    var k := if hasPr then 1 else 0;
    assert actions[k] == OpenInBrowser && actions[k + 1] == SwitchBranch;
    actions
  }

  datatype MenuOutcome =
    | Interrupted             // quit key: `KeyboardInterrupt` up to the task list
    | BackToList
    | Highlight(index: int)   // stay in the menu with this entry highlighted
    | Perform(action: Action, index: int)

  /** One key press in the action menu. */
  function ActionMenuStep(actions: seq<Action>, index: int, key: string): (out: MenuOutcome)
    requires 0 <= index < |actions|
    ensures out == Interrupted <==> IsQuitKey(key)
    ensures out.Highlight? ==> 0 <= out.index < |actions| && !IsEnterKey(key)
    ensures out.Perform? ==> 0 <= out.index < |actions| && out.action == actions[out.index] && out.action != Back
    ensures out.Perform? ==> out.index == index && IsEnterKey(key)
    ensures (IsEscapeKey(key) || key == "3") ==> out == BackToList
    ensures IsEnterKey(key) && actions[index] == Back ==> out == BackToList
    ensures IsEnterKey(key) && actions[index] != Back ==> out == Perform(actions[index], index)
    ensures !IsQuitKey(key) && !IsEscapeKey(key) && key != "3" && !IsEnterKey(key) ==>
      out == Highlight(HandleArrowNavigation(key, index, |actions|))
  {
    if IsQuitKey(key) then Interrupted
    else if IsEscapeKey(key) || key == "3" then BackToList
    else
      var i := HandleArrowNavigation(key, index, |actions|);
      if IsEnterKey(key) then
        if actions[i] == Back then BackToList else Perform(actions[i], i)
      else Highlight(i)
  }

  // ---------------------------------------------------------------------
  // The component picker (`select_components_interactive`)
  // ---------------------------------------------------------------------

  const NONE_OPTION: string := "[None - No component]"
  const DONE_OPTION: string := "[Done - Finish selection]"
  const CHECK_MARK: string := " \U{2713}"

  function ComponentOptions(components: seq<string>): (options: seq<string>)
    ensures |options| == |components| + 2
    ensures options[0] == NONE_OPTION && options[|options| - 1] == DONE_OPTION
    ensures options[1..|options| - 1] == components
  {
    [NONE_OPTION] + components + [DONE_OPTION]
  }

  /** Each option followed by a check mark exactly when it is selected. */
  function OptionsWithMarkers(options: seq<string>, selected: seq<string>): (shown: seq<string>)
    ensures |shown| == |options|
    ensures forall i :: 0 <= i < |options| ==>
      shown[i] == options[i] + (if options[i] in selected then CHECK_MARK else "")
  {
    seq(|options|, i requires 0 <= i < |options| => options[i] + (if options[i] in selected then CHECK_MARK else ""))
  }

  /** Markers appear on the selected options and only on them. */
  lemma MarkersOnSelectedOnly(options: seq<string>, selected: seq<string>, i: int)
    requires 0 <= i < |options|
    ensures var shown := OptionsWithMarkers(options, selected)[i];
      options[i] in selected <==> |shown| == |options[i]| + 2 && shown[|options[i]|..] == CHECK_MARK
  {
  }

  datatype PickerState = PickerState(selected: seq<string>, index: int)

  datatype PickerOutcome =
    | PickCancelled                       // `None`
    | Picked(components: seq<string>)     // the returned list
    | Picking(state: PickerState)         // still in the loop

  /** One key press in the component picker. */
  function ComponentStep(options: seq<string>, st: PickerState, key: string): (out: PickerOutcome)
    requires 0 <= st.index < |options|
    ensures out == PickCancelled <==> key == "q" || key == CTRL_C
    ensures out.Picking? ==> 0 <= out.state.index < |options|
    ensures out.Picked? ==> IsEnterKey(key) && (out.components == [] || out.components == st.selected)
    ensures out.Picking? && out.state.selected != st.selected ==>
      IsEnterKey(key) && out.state.selected == Toggle(st.selected, options[st.index])
    ensures IsEnterKey(key) && options[st.index] == NONE_OPTION ==> out == Picked([])
    ensures IsEnterKey(key) && options[st.index] == DONE_OPTION ==>
      out == Picked(st.selected)
    ensures IsEnterKey(key) && options[st.index] != NONE_OPTION && options[st.index] != DONE_OPTION ==>
      out == Picking(PickerState(Toggle(st.selected, options[st.index]), st.index))
    ensures !IsEnterKey(key) && key != "q" && key != CTRL_C ==>
      out == Picking(PickerState(st.selected, HandleArrowNavigation(key, st.index, |options|)))
  {
    if key == "q" || key == CTRL_C then PickCancelled
    else
      var i := HandleArrowNavigation(key, st.index, |options|);
      if IsEnterKey(key) then
        var option := options[i];
        if option == NONE_OPTION then Picked([])
        else if option == DONE_OPTION then Picked(st.selected)
        else Picking(PickerState(Toggle(st.selected, option), i))
      else Picking(PickerState(st.selected, i))
  }

  /** The picker loop over a sequence of key presses; `Picking` when the keys run out. */
  function RunPicker(options: seq<string>, st: PickerState, keys: seq<string>): PickerOutcome
    requires 0 <= st.index < |options|
    decreases |keys|
  {
    if |keys| == 0 then Picking(st)
    else
      match ComponentStep(options, st, keys[0])
      case Picking(next) => RunPicker(options, next, keys[1..])
      case done => done
  }

  /** `select_components_interactive` from the component fetch and the
      keys pressed: a failed fetch or a project without components gives
      the empty list straight away. A `Failure` stands for the
      `JiraAPIException` the source catches; other exceptions are not modelled. */
  function SelectComponents(fetched: Result<seq<string>, string>, keys: seq<string>): (out: PickerOutcome)
    ensures fetched.Failure? || fetched.value == [] ==> out == Picked([])
    ensures fetched.Success? && fetched.value != [] && keys == [] ==> out == Picking(PickerState([], 0))
    ensures fetched.Success? && fetched.value != [] && |keys| > 0 && IsEnterKey(keys[0]) ==> out == Picked([])
  {
    if fetched.Failure? || |fetched.value| == 0 then Picked([])
    else RunPicker(ComponentOptions(fetched.value), PickerState([], 0), keys)
  }

  /** The selection only ever holds distinct options of the list other than the two special ones. */
  predicate ValidSelection(options: seq<string>, selected: seq<string>) {
    && NoDuplicates(selected)
    && forall k :: 0 <= k < |selected| ==> selected[k] in options && selected[k] != NONE_OPTION && selected[k] != DONE_OPTION
  }

  lemma StepKeepsValid(options: seq<string>, st: PickerState, key: string)
    requires 0 <= st.index < |options| && ValidSelection(options, st.selected)
    ensures ComponentStep(options, st, key).Picking? ==> ValidSelection(options, ComponentStep(options, st, key).state.selected)
    ensures ComponentStep(options, st, key).Picked? ==> ValidSelection(options, ComponentStep(options, st, key).components)
  {
    var out := ComponentStep(options, st, key);
    if out.Picking? && out.state.selected != st.selected {
      var x := options[st.index];
      var r := out.state.selected;
      forall k | 0 <= k < |r|
        ensures r[k] in options && r[k] != NONE_OPTION && r[k] != DONE_OPTION
      {
        assert r[k] in r;
        if r[k] != x {
          var m :| 0 <= m < |st.selected| && st.selected[m] == r[k];
        }
      }
    }
  }

  lemma {:induction false} RunKeepsValid(options: seq<string>, st: PickerState, keys: seq<string>)
    requires 0 <= st.index < |options| && ValidSelection(options, st.selected)
    ensures RunPicker(options, st, keys).Picking? ==> ValidSelection(options, RunPicker(options, st, keys).state.selected)
    ensures RunPicker(options, st, keys).Picked? ==> ValidSelection(options, RunPicker(options, st, keys).components)
    decreases |keys|
  {
    if |keys| > 0 {
      StepKeepsValid(options, st, keys[0]);
      var out := ComponentStep(options, st, keys[0]);
      if out.Picking? {
        RunKeepsValid(options, out.state, keys[1..]);
      }
    }
  }

  /** Whatever keys are pressed, the picker returns distinct components of the project. */
  lemma PickedAreComponents(fetched: Result<seq<string>, string>, keys: seq<string>)
    ensures var out := SelectComponents(fetched, keys);
      out.Picked? ==>
        && NoDuplicates(out.components)
        && forall k :: 0 <= k < |out.components| ==> fetched.Success? && out.components[k] in fetched.value
  {
    if fetched.Success? && |fetched.value| > 0 {
      var options := ComponentOptions(fetched.value);
      RunKeepsValid(options, PickerState([], 0), keys);
      var out := RunPicker(options, PickerState([], 0), keys);
      if out.Picked? {
        forall k | 0 <= k < |out.components|
          ensures out.components[k] in fetched.value
        {
          var c := out.components[k];
          var m :| 0 <= m < |options| && options[m] == c;
          assert 0 < m < |options| - 1;
          assert options[1..|options| - 1][m - 1] == c;
        }
      }
    }
  }

  /** Enter on the None option ends with no components, whatever was selected. */
  lemma NoneOptionClears(options: seq<string>, selected: seq<string>)
    requires |options| > 0 && options[0] == NONE_OPTION
    ensures ComponentStep(options, PickerState(selected, 0), "\r") == Picked([])
  {
  }

  // ---------------------------------------------------------------------
  // The task list (`display_interactive_tasks`)
  // ---------------------------------------------------------------------

  datatype ListState = ListState(issues: seq<Task>, index: int)

  /** What a key press on the task list leads to. */
  datatype ListEvent =
    | Goodbye
    | OpenActions(task: Task)
    | NewTask
    | Refreshed
    | RefreshFailed(error: string)
    | Checkout(task: Task)
    | NothingToCheckout
    | ShowHelp
    | Redraw

  /** The highlighted index points at a task whenever there is one. */
  predicate IndexValid(st: ListState) {
    |st.issues| > 0 ==> 0 <= st.index < |st.issues|
  }

  /** One key press on the task list; `refresh` is what re-fetching the tasks yields, used on "r". */
  function TaskListStep(st: ListState, key: string, refresh: Result<seq<Task>, string>): (r: (ListState, ListEvent))
    requires IndexValid(st)
    ensures IndexValid(r.0)
    ensures r.1 == Goodbye <==> IsQuitKey(key) || IsEscapeKey(key)
    ensures key == "r" && refresh.Success? ==> r.0 == ListState(refresh.value, 0) && r.1 == Refreshed
    ensures !(key == "r" && refresh.Success?) ==> r.0.issues == st.issues
    ensures r.1.OpenActions? || r.1.Checkout? ==>
      0 <= r.0.index < |st.issues| && r.1.task == st.issues[r.0.index]
    ensures !IsQuitKey(key) && !IsEscapeKey(key) && !(key == "r" && refresh.Success?) ==>
      r.0.index == if |st.issues| > 0 then HandleArrowNavigation(key, st.index, |st.issues|) else st.index
    ensures IsEnterKey(key) ==> r.1 == if |st.issues| > 0 then OpenActions(st.issues[st.index]) else Redraw
    ensures key == "c" ==> r.1 == if |st.issues| > 0 then Checkout(st.issues[st.index]) else NothingToCheckout
    ensures key == "n" ==> r.1 == NewTask
    ensures key == "h" ==> r.1 == ShowHelp
    ensures key == "r" && refresh.Failure? ==> r.1 == RefreshFailed(refresh.error)
  {
    if IsQuitKey(key) || IsEscapeKey(key) then (st, Goodbye)
    else
      var index := if |st.issues| > 0 then HandleArrowNavigation(key, st.index, |st.issues|) else st.index;
      var moved := ListState(st.issues, index);
      if IsEnterKey(key) then
        (moved, if |st.issues| > 0 then OpenActions(st.issues[index]) else Redraw)
      else if key == "n" then (moved, NewTask)
      else if key == "r" then
        match refresh
        case Success(issues) => (ListState(issues, 0), Refreshed)
        case Failure(e) => (moved, RefreshFailed(e))
      else if key == "c" then
        (moved, if |st.issues| > 0 then Checkout(st.issues[index]) else NothingToCheckout)
      else if key == "h" then (moved, ShowHelp)
      else (moved, Redraw)
  }
}

=== FILE: jql.dfy ===
/** The issue search query for "my incomplete tasks" (the JQL built in
    `_fetch_jira_tasks_only`, clients/jira.py, and in client.py). */
module Jql {
  import opened Text

  const EXCLUDED_STATUSES: seq<string> := ["Done", "Resolved", "Closed", "Cancelled"]

  const CLAUSE_SEPARATOR: string := " AND "
  const ORDERING: string := " ORDER BY updated DESC"

  function StatusClause(status: string): string {
    "status != \"" + status + "\""
  }

  function StatusClauses(statuses: seq<string>): (cs: seq<string>)
    ensures |cs| == |statuses|
    ensures forall i :: 0 <= i < |cs| ==> cs[i] == StatusClause(statuses[i])
  {
    seq(|statuses|, i requires 0 <= i < |statuses| => StatusClause(statuses[i]))
  }

  /** The exclusion clauses joined by " AND ". */
  function StatusExclusion(statuses: seq<string>): string {
    Join(CLAUSE_SEPARATOR, StatusClauses(statuses))
  }

  /** The assignee clause first, then the exclusions, newest first. */
  function BuildJql(accountId: string): (q: string)
    ensures StartsWith(q, "assignee = \"" + accountId + "\" AND ")
    ensures |q| >= |ORDERING| && q[|q| - |ORDERING|..] == " ORDER BY updated DESC"
  {
    "assignee = \"" + accountId + "\"" + CLAUSE_SEPARATOR + StatusExclusion(EXCLUDED_STATUSES) + ORDERING
  }

  lemma JoinFour(sep: string, a: string, b: string, c: string, d: string)
    ensures Join(sep, [a, b, c, d]) == a + sep + b + sep + c + sep + d
  {
    assert [a, b, c, d][1..] == [b, c, d];
    assert [b, c, d][1..] == [c, d];
    assert [c, d][1..] == [d];
    assert Join(sep, [d]) == d;
    assert Join(sep, [c, d]) == c + sep + d;
    assert Join(sep, [b, c, d]) == b + sep + (c + sep + d);
  }

  lemma ExcludedClauses()
    ensures StatusClauses(EXCLUDED_STATUSES) ==
      [StatusClause("Done"), StatusClause("Resolved"), StatusClause("Closed"), StatusClause("Cancelled")]
  {
  }

  lemma ClauseTexts()
    ensures StatusClause("Done") == "status != \"Done\"" && StatusClause("Resolved") == "status != \"Resolved\""
    ensures StatusClause("Closed") == "status != \"Closed\"" && StatusClause("Cancelled") == "status != \"Cancelled\""
  {
  }

  /** The exclusion part names the four closed states, in order. */
  lemma ExclusionText()
    ensures StatusExclusion(EXCLUDED_STATUSES) ==
      "status != \"Done\"" + " AND " + "status != \"Resolved\"" + " AND " + "status != \"Closed\"" + " AND " + "status != \"Cancelled\""
  {
    var d, r, c, x := StatusClause("Done"), StatusClause("Resolved"), StatusClause("Closed"), StatusClause("Cancelled");
    ExcludedClauses();
    ClauseTexts();
    JoinFour(CLAUSE_SEPARATOR, d, r, c, x);
  }

  /** The query: the assignee, then the exclusions, newest first. */
  lemma JqlText(accountId: string)
    ensures BuildJql(accountId) ==
      "assignee = \"" + accountId + "\"" + " AND "
      + ("status != \"Done\"" + " AND " + "status != \"Resolved\"" + " AND " + "status != \"Closed\"" + " AND " + "status != \"Cancelled\"")
      + " ORDER BY updated DESC"
  {
    ExclusionText();
  }

  /** Joining puts every piece into the result, each preceded by the
      separator unless it is the first. */
  lemma {:induction false} JoinHasPieces(sep: string, xs: seq<string>, i: nat)
    requires i < |xs|
    ensures Contains(Join(sep, xs), xs[i])
    ensures i > 0 ==> Contains(Join(sep, xs), sep + xs[i])
    decreases i
  {
    var j := Join(sep, xs);
    if |xs| == 1 {
      StartsWithWhole(xs[0]);
    } else if i == 0 {
      assert j == xs[0] + (sep + Join(sep, xs[1..]));
      assert StartsWith(j, xs[0]);
    } else {
      JoinHasPieces(sep, xs[1..], i - 1);
      if i == 1 {
        var rest := Join(sep, xs[1..]);
        if |xs[1..]| == 1 {
          assert rest == xs[1];
        } else {
          assert rest == xs[1] + (sep + Join(sep, xs[2..]));
        }
        assert StartsWith(rest, xs[1]);
        assert StartsWith(sep + rest, sep + xs[1]);
        assert Contains(sep + rest, sep + xs[1]);
        ContainsInSuffix(xs[0], sep + rest, sep + xs[1]);
        assert j == xs[0] + (sep + rest);
      } else {
        ContainsInSuffix(xs[0] + sep, Join(sep, xs[1..]), sep + xs[i]);
        assert j == xs[0] + sep + Join(sep, xs[1..]);
      }
      ContainsInSuffix(xs[0] + sep, Join(sep, xs[1..]), xs[i]);
      assert j == xs[0] + sep + Join(sep, xs[1..]);
    }
  }

  lemma StartsWithWhole(s: string)
    ensures Contains(s, s)
  {
    assert StartsWith(s, s);
  }

  /** Every status in the exclusion list gets its own `status != "S"` clause in the query. */
  lemma EveryStatusExcluded(accountId: string, i: nat)
    requires i < |EXCLUDED_STATUSES|
    ensures Contains(BuildJql(accountId), StatusClause(EXCLUDED_STATUSES[i]))
  {
    var cs := StatusClauses(EXCLUDED_STATUSES);
    JoinHasPieces(CLAUSE_SEPARATOR, cs, i);
    var prefix := "assignee = \"" + accountId + "\"" + CLAUSE_SEPARATOR;
    ContainsInSuffix(prefix, StatusExclusion(EXCLUDED_STATUSES), cs[i]);
    ContainsInPrefix(prefix + StatusExclusion(EXCLUDED_STATUSES), ORDERING, cs[i]);
  }
}

=== FILE: keyboard.dfy ===
/** Key classification and menu navigation (`KeyboardInput` in
    keyboard_utils.py). A key is the string `get_key` returns: one
    character, or an escape sequence for the arrow keys. */
module Keyboard {

  const ESC: string := "\U{1B}"
  const ENTER: string := "\r"
  const NEWLINE: string := "\n"
  const CTRL_C: string := "\U{3}"
  const UP_ARROW: string := "\U{1B}[A"
  const DOWN_ARROW: string := "\U{1B}[B"

  predicate IsEscapeKey(key: string) {
    key == ESC
  }

  predicate IsEnterKey(key: string) {
    key == ENTER || key == NEWLINE
  }

  predicate IsQuitKey(key: string) {
    key == "q" || key == CTRL_C
  }

  predicate IsArrowKey(key: string) {
    key == UP_ARROW || key == DOWN_ARROW
  }

  /** The key classes never overlap; in particular an arrow sequence is not a bare escape. */
  lemma KeyClassesDisjoint(key: string)
    ensures !(IsEscapeKey(key) && IsArrowKey(key))
    ensures !(IsEnterKey(key) && IsQuitKey(key))
    ensures !(IsEnterKey(key) && (IsEscapeKey(key) || IsArrowKey(key)))
    ensures !(IsQuitKey(key) && (IsEscapeKey(key) || IsArrowKey(key)))
  {
  }

  /** `x % n` for `x` at most one period outside `[0, n)`. */
  lemma ModNear(x: int, n: int)
    requires n > 0
    ensures -n <= x < 2 * n ==> x % n == if x < 0 then x + n else if x < n then x else x - n
  {
    if -n <= x < 2 * n {
      ModNearInRange(x, n);
    }
  }

  lemma ModNearInRange(x: int, n: int)
    requires n > 0 && -n <= x < 2 * n
    ensures x % n == if x < 0 then x + n else if x < n then x else x - n
  {
    var q := x / n;
    var r := x % n;
    assert x == q * n + r && 0 <= r < n;
    assert -1 <= q <= 1;
    if q == 1 {
      assert x == n + r;
    } else if q == -1 {
      assert x == -n + r;
    } else {
      assert x == r;
    }
  }

  /** `handle_arrow_navigation`: up and down move cyclically through `n`
      items (Python's `%`, which for a positive modulus agrees with
      Dafny's); any other key leaves the index alone. With no items an
      arrow key divides by zero, so callers pass `n > 0` for arrows. */
  function HandleArrowNavigation(key: string, index: int, n: int): (r: int)
    requires IsArrowKey(key) ==> n > 0
    ensures !IsArrowKey(key) ==> r == index
    ensures IsArrowKey(key) ==> 0 <= r < n
    ensures key == UP_ARROW && 0 <= index < n ==> r == if index == 0 then n - 1 else index - 1
    ensures key == DOWN_ARROW && 0 <= index < n ==> r == if index == n - 1 then 0 else index + 1
  {
    if key == UP_ARROW then
      ModNear(index - 1, n);
      (index - 1) % n
    else if key == DOWN_ARROW then
      ModNear(index + 1, n);
      (index + 1) % n
    else index
  }

  /** An index within range stays within range, whatever the key. */
  lemma NavigationInBounds(key: string, index: int, n: int)
    requires n > 0 && 0 <= index < n
    ensures 0 <= HandleArrowNavigation(key, index, n) < n
  {
  }

  /** Up from the first item wraps to the last; down from the last wraps to the first. */
  lemma NavigationWraps(n: int)
    requires n > 0
    ensures HandleArrowNavigation(UP_ARROW, 0, n) == n - 1
    ensures HandleArrowNavigation(DOWN_ARROW, n - 1, n) == 0
  {
  }

  /** Down undoes up and up undoes down. */
  lemma UpDownInverse(index: int, n: int)
    requires 0 <= index < n
    ensures HandleArrowNavigation(DOWN_ARROW, HandleArrowNavigation(UP_ARROW, index, n), n) == index
    ensures HandleArrowNavigation(UP_ARROW, HandleArrowNavigation(DOWN_ARROW, index, n), n) == index
  {
  }
}

=== FILE: matching.dfy ===
/** Correlating a task key with an open pull request
    (`_find_pr_by_content` in client.py, `PRManager.find_pr_by_content`
    in clients/github.py). */
module Matching {
  import opened Results
  import opened Text
  import opened Reviews

  /** One entry of `gh pr list --json url,title,headRefName,body,reviews,state`;
      missing title, branch and body read as "", missing reviews as []. */
  datatype PullRequest = PullRequest(
    url: Option<string>,
    title: string,
    headRefName: string,
    body: string,
    state: Option<string>,
    reviews: seq<Review>)

  /** The projection returned to callers: url, reviews and state only. */
  datatype PrInfo = PrInfo(url: Option<string>, reviews: seq<Review>, state: Option<string>)

  function Project(pr: PullRequest): PrInfo {
    PrInfo(pr.url, pr.reviews, pr.state)
  }

  /** The source's test, literally: upper-cased search in the title and
      body, lower-cased search in the branch name. */
  predicate MatchesContent(pr: PullRequest, content: string) {
    || Contains(Upper(pr.title), Upper(content))
    || Contains(Lower(pr.headRefName), Lower(content))
    || Contains(Upper(pr.body), Upper(content))
  }

  /** Position of the first pull request (in list order) that matches, or -1. */
  function FirstMatchIndex(content: string, prs: seq<PullRequest>): (k: int)
    ensures -1 <= k < |prs|
    ensures k >= 0 ==> MatchesContent(prs[k], content)
    ensures forall j :: 0 <= j < |prs| && (k < 0 || j < k) ==> !MatchesContent(prs[j], content)
  {
    if |prs| == 0 then -1
    else if MatchesContent(prs[0], content) then 0
    else
      var k := FirstMatchIndex(content, prs[1..]);
      if k < 0 then -1 else k + 1
  }

  /** `find_pr_by_content`: nothing for an empty key, otherwise the first
      pull request whose title, branch or body contains the key. */
  function FindPrByContent(content: string, prs: seq<PullRequest>): (r: Option<PrInfo>)
    ensures content == "" ==> r == None
    ensures r.None? <==> content == "" || forall i :: 0 <= i < |prs| ==> !MatchesContent(prs[i], content)
    ensures r.Some? ==>
      exists i ::
        && 0 <= i < |prs|
        && MatchesContent(prs[i], content)
        && (forall j :: 0 <= j < i ==> !MatchesContent(prs[j], content))
        && r.value == Project(prs[i])
  {
    if content == "" then None
    else
      var k := FirstMatchIndex(content, prs);
      if k < 0 then None else Some(Project(prs[k]))
  }

  /** The mixed upper/lower test is plain case-insensitive containment in any of the three fields. */
  lemma MatchIsCaseInsensitive(pr: PullRequest, content: string)
    ensures MatchesContent(pr, content) <==>
      || ContainsIgnoringCase(pr.title, content)
      || ContainsIgnoringCase(pr.headRefName, content)
      || ContainsIgnoringCase(pr.body, content)
  {
    ContainsFoldsAgree(pr.headRefName, content);
  }

  /** Keys that differ only in letter case select the same pull request. */
  lemma {:induction false} KeyCaseIrrelevant(k1: string, k2: string, prs: seq<PullRequest>)
    requires Upper(k1) == Upper(k2)
    ensures FindPrByContent(k1, prs) == FindPrByContent(k2, prs)
  {
    assert |k1| == |Upper(k1)| == |Upper(k2)| == |k2|;
    SameUpperSameLower(k1, k2);
    forall pr: PullRequest
      ensures MatchesContent(pr, k1) <==> MatchesContent(pr, k2)
    {
    }
    FirstMatchAgrees(k1, k2, prs);
  }

  lemma {:induction false} FirstMatchAgrees(k1: string, k2: string, prs: seq<PullRequest>)
    requires forall pr: PullRequest :: MatchesContent(pr, k1) <==> MatchesContent(pr, k2)
    ensures FirstMatchIndex(k1, prs) == FirstMatchIndex(k2, prs)
  {
    if |prs| > 0 {
      FirstMatchAgrees(k1, k2, prs[1..]);
    }
  }

  /** A key found in the title of the only pull request selects it, whatever the case of either. */
  lemma TitleMatchFound(key: string, pr: PullRequest)
    requires key != "" && ContainsIgnoringCase(pr.title, key)
    ensures FindPrByContent(key, [pr]) == Some(Project(pr))
  {
  }
}

=== FILE: results.dfy ===
/** Failure-carrying values shared by the whole model. A Python `None` return
    or a defaulted-missing dictionary entry becomes `Option`; an exception the
    caller sees becomes the `Failure` side of `Result`. */
module Results {

  datatype Option<+T> = None | Some(value: T) {

    /** The value, or `default` when absent, as `dict.get(key, default)`. */
    function GetOr(default: T): T {
      match this
      case Some(v) => v
      case None => default
    }
  }

  datatype Result<+R, +E> = Success(value: R) | Failure(error: E)
}

=== FILE: reviews.dfy ===
/** Review-status classification of a pull request's review history
    (`analyze_pr_reviews` in client.py and clients/github.py). */
module Reviews {

  /** One review event of `gh pr list --json reviews`, in chronological
      order; a missing `author` or `author.login` is the empty login. */
  datatype Review = Review(login: string, state: string)

  datatype ReviewStatus = Approved | ChangesRequested | ReviewRequired | NoReviews

  const CHANGES_REQUESTED: string := "CHANGES_REQUESTED"
  const APPROVED: string := "APPROVED"

  /** The reviewer-to-latest-review dictionary the source builds: reviews
      are visited in order and each non-empty login's entry is overwritten. */
  function LatestByReviewer(rs: seq<Review>): map<string, Review> {
    if |rs| == 0 then map[]
    else
      var m := LatestByReviewer(rs[..|rs| - 1]);
      var r := rs[|rs| - 1];
      if r.login != "" then m[r.login := r] else m
  }

  /** Index of the last review by `login`, or -1 when there is none. */
  function LastIndexOf(rs: seq<Review>, login: string): (k: int)
    ensures -1 <= k < |rs|
    ensures k >= 0 ==> rs[k].login == login
    ensures forall j :: k < j < |rs| ==> rs[j].login != login
  {
    if |rs| == 0 then -1
    else if rs[|rs| - 1].login == login then |rs| - 1
    else LastIndexOf(rs[..|rs| - 1], login)
  }

  /** Reference notion of a retained review: it has a login and no later
      review has the same login. */
  predicate IsLatest(rs: seq<Review>, i: int)
    requires 0 <= i < |rs|
  {
    rs[i].login != "" && forall j :: i < j < |rs| ==> rs[j].login != rs[i].login
  }

  /** Some retained review has the given state. */
  predicate HasLatestState(rs: seq<Review>, state: string) {
    exists i :: 0 <= i < |rs| && IsLatest(rs, i) && rs[i].state == state
  }

  /** The dictionary maps every non-empty login that occurs to that login's last review. */
  lemma {:induction false} LatestByReviewerIsLastReview(rs: seq<Review>, login: string)
    ensures login in LatestByReviewer(rs) <==> login != "" && LastIndexOf(rs, login) >= 0
    ensures login in LatestByReviewer(rs) ==> LatestByReviewer(rs)[login] == rs[LastIndexOf(rs, login)]
  {
    if |rs| > 0 {
      var prefix := rs[..|rs| - 1];
      LatestByReviewerIsLastReview(prefix, login);
      if rs[|rs| - 1].login != login {
        var k := LastIndexOf(prefix, login);
        assert k >= 0 ==> rs[k] == prefix[k];
      }
    }
  }

  lemma LatestIsLastIndex(rs: seq<Review>, i: int)
    requires 0 <= i < |rs|
    ensures IsLatest(rs, i) <==> rs[i].login != "" && LastIndexOf(rs, rs[i].login) == i
  {
  }

  /** A state occurs among the dictionary's values exactly when a retained review carries it. */
  lemma LatestValuesHaveState(rs: seq<Review>, state: string)
    ensures (exists v :: v in LatestByReviewer(rs).Values && v.state == state) <==> HasLatestState(rs, state)
  {
    var m := LatestByReviewer(rs);
    if v :| v in m.Values && v.state == state {
      var login :| login in m && m[login] == v;
      LatestByReviewerIsLastReview(rs, login);
      var i := LastIndexOf(rs, login);
      LatestIsLastIndex(rs, i);
      assert IsLatest(rs, i) && rs[i].state == state;
    }
    if HasLatestState(rs, state) {
      var i :| 0 <= i < |rs| && IsLatest(rs, i) && rs[i].state == state;
      LatestIsLastIndex(rs, i);
      LatestByReviewerIsLastReview(rs, rs[i].login);
      assert m[rs[i].login] in m.Values;
    }
  }

  /** `analyze_pr_reviews`: no reviews at all, else the first of
      changes-requested, approved, review-required that the retained
      (latest per login) reviews support. */
  function AnalyzePrReviews(rs: seq<Review>): (status: ReviewStatus)
    ensures status == NoReviews <==> |rs| == 0
    ensures status == ChangesRequested <==> |rs| > 0 && HasLatestState(rs, CHANGES_REQUESTED)
    ensures status == Approved <==>
      |rs| > 0 && !HasLatestState(rs, CHANGES_REQUESTED) && HasLatestState(rs, APPROVED)
    ensures status == ReviewRequired <==>
      |rs| > 0 && !HasLatestState(rs, CHANGES_REQUESTED) && !HasLatestState(rs, APPROVED)
  {
    if |rs| == 0 then NoReviews
    else
      var latest := LatestByReviewer(rs).Values;
      LatestValuesHaveState(rs, CHANGES_REQUESTED);
      LatestValuesHaveState(rs, APPROVED);
      if exists v :: v in latest && v.state == CHANGES_REQUESTED then ChangesRequested
      else if exists v :: v in latest && v.state == APPROVED then Approved
      else ReviewRequired
  }

  /** The source's loop: build the reviewer dictionary in one pass, then
      test its values for a change request and for an approval. */
  method ClassifyReviews(rs: seq<Review>) returns (status: ReviewStatus)
    ensures status == AnalyzePrReviews(rs)
  {
    if |rs| == 0 {
      return NoReviews;
    }
    var latest: map<string, Review> := map[];
    var i := 0;
    while i < |rs|
      invariant 0 <= i <= |rs|
      invariant latest == LatestByReviewer(rs[..i])
    {
      assert rs[..i + 1][..i] == rs[..i];
      if rs[i].login != "" {
        latest := latest[rs[i].login := rs[i]];
      }
      i := i + 1;
    }
    assert rs[..i] == rs;
    if exists v :: v in latest.Values && v.state == CHANGES_REQUESTED {
      status := ChangesRequested;
    } else if exists v :: v in latest.Values && v.state == APPROVED {
      status := Approved;
    } else {
      status := ReviewRequired;
    }
  }

  // ---------------------------------------------------------------------
  // Properties of the classifier
  // ---------------------------------------------------------------------

  /** A non-empty history in which no review names its author needs review. */
  lemma AnonymousReviewsNeedReview(rs: seq<Review>)
    requires |rs| > 0
    requires forall i :: 0 <= i < |rs| ==> rs[i].login == ""
    ensures AnalyzePrReviews(rs) == ReviewRequired
  {
  }

  /** A change request that is a reviewer's latest word wins over any number of approvals. */
  lemma ChangeRequestWins(rs: seq<Review>, r: Review)
    requires r.login != "" && r.state == CHANGES_REQUESTED
    ensures AnalyzePrReviews(rs + [r]) == ChangesRequested
  {
    assert IsLatest(rs + [r], |rs|);
  }

  lemma DropIndex(rs: seq<Review>, i: int, k: int)
    requires 0 <= i < |rs| && 0 <= k < |rs| - 1
    ensures (rs[..i] + rs[i + 1..])[k] == rs[if k < i then k else k + 1]
  {
  }

  /** A review retained after the drop was retained before it. */
  lemma DropSupersededKeepsLatest(rs: seq<Review>, i: int, k: int)
    requires 0 <= i < |rs| && !IsLatest(rs, i)
    requires 0 <= k < |rs| - 1 && IsLatest(rs[..i] + rs[i + 1..], k)
    ensures IsLatest(rs, if k < i then k else k + 1)
  {
    var rs' := rs[..i] + rs[i + 1..];
    var k0 := if k < i then k else k + 1;
    DropIndex(rs, i, k);
    forall j | k0 < j < |rs|
      ensures rs[j].login != rs[k0].login
    {
      if j == i {
        if rs[i].login == rs[k0].login {
          // rs[i] has a login, so a later review by the same login superseded it
          var j2 :| i < j2 < |rs| && rs[j2].login == rs[i].login;
          DropIndex(rs, i, j2 - 1);
        }
      } else {
        var j' := if j < i then j else j - 1;
        DropIndex(rs, i, j');
      }
    }
  }

  /** A review retained before the drop is still retained after it. */
  lemma DropSupersededKeepsOthers(rs: seq<Review>, i: int, k: int)
    requires 0 <= i < |rs| && !IsLatest(rs, i)
    requires 0 <= k < |rs| && IsLatest(rs, k)
    ensures k != i && IsLatest(rs[..i] + rs[i + 1..], if k < i then k else k - 1)
  {
    var rs' := rs[..i] + rs[i + 1..];
    var k' := if k < i then k else k - 1;
    DropIndex(rs, i, k');
    forall j | k' < j < |rs'|
      ensures rs'[j].login != rs'[k'].login
    {
      DropIndex(rs, i, j);
    }
  }

  /** Dropping a review that is not retained keeps the retained states. */
  lemma DropSupersededKeepsStates(rs: seq<Review>, i: int, state: string)
    requires 0 <= i < |rs| && !IsLatest(rs, i)
    ensures HasLatestState(rs[..i] + rs[i + 1..], state) <==> HasLatestState(rs, state)
  {
    var rs' := rs[..i] + rs[i + 1..];
    if HasLatestState(rs', state) {
      var k :| 0 <= k < |rs'| && IsLatest(rs', k) && rs'[k].state == state;
      DropSupersededKeepsLatest(rs, i, k);
      DropIndex(rs, i, k);
    }
    if HasLatestState(rs, state) {
      var k :| 0 <= k < |rs| && IsLatest(rs, k) && rs[k].state == state;
      DropSupersededKeepsOthers(rs, i, k);
      DropIndex(rs, i, if k < i then k else k - 1);
    }
  }

  /** Only a reviewer's latest review matters: removing an earlier review
      by the same login leaves the status unchanged. */
  lemma SupersededReviewIgnored(rs: seq<Review>, i: int, j: int)
    requires 0 <= i < j < |rs| && rs[i].login == rs[j].login
    ensures AnalyzePrReviews(rs[..i] + rs[i + 1..]) == AnalyzePrReviews(rs)
  {
    assert !IsLatest(rs, i);
    DropSupersededKeepsStates(rs, i, CHANGES_REQUESTED);
    DropSupersededKeepsStates(rs, i, APPROVED);
  }

  /** A review without a login never influences a non-trivial status. */
  lemma AnonymousReviewIgnored(rs: seq<Review>, i: int)
    requires 0 <= i < |rs| && rs[i].login == "" && |rs| > 1
    ensures AnalyzePrReviews(rs[..i] + rs[i + 1..]) == AnalyzePrReviews(rs)
  {
    DropSupersededKeepsStates(rs, i, CHANGES_REQUESTED);
    DropSupersededKeepsStates(rs, i, APPROVED);
  }
}

=== FILE: selection.dfy ===
/** Multi-selection lists kept in selection order, as both pickers keep
    them: `list.remove` of the first occurrence and `list.append`
    (commands/interactive.py and commands/assign.py). */
module Selection {

  /** Position of the first occurrence of `x`. */
  function IndexOf(s: seq<string>, x: string): (k: nat)
    requires x in s
    ensures k < |s| && s[k] == x && x !in s[..k]
  {
    if s[0] == x then 0 else 1 + IndexOf(s[1..], x)
  }

  /** `list.remove(x)`: drops the first occurrence. */
  function RemoveFirst(s: seq<string>, x: string): (r: seq<string>)
    requires x in s
    ensures var k := IndexOf(s, x); r == s[..k] + s[k + 1..]
    ensures multiset(r) == multiset(s) - multiset{x}
  {
    assert s == [s[0]] + s[1..];
    if s[0] == x then s[1..]
    else
      ConsAroundIndex(s, IndexOf(s[1..], x));
      [s[0]] + RemoveFirst(s[1..], x)
  }

  lemma ConsAroundIndex(s: seq<string>, k: nat)
    requires k + 1 < |s|
    ensures [s[0]] + (s[1..][..k] + s[1..][k + 1..]) == s[..k + 1] + s[k + 2..]
  {
    assert s[..k + 1] == [s[0]] + s[1..][..k];
    assert s[k + 2..] == s[1..][k + 1..];
  }

  predicate NoDuplicates(s: seq<string>) {
    forall i, j :: 0 <= i < j < |s| ==> s[i] != s[j]
  }

  /** Selecting an entry removes it when it is selected and appends it otherwise. */
  function Toggle(selected: seq<string>, x: string): (r: seq<string>)
    ensures x in selected ==> multiset(r) == multiset(selected) - multiset{x}
    ensures x !in selected ==> r == selected + [x]
    ensures NoDuplicates(selected) ==> NoDuplicates(r) && (x in r <==> x !in selected)
    ensures forall y :: y != x ==> (y in r <==> y in selected)
  {
    if x in selected then
      var r := RemoveFirst(selected, x);
      MultisetNoDuplicates(selected, r, x);
      r
    else selected + [x]
  }

  lemma MultisetNoDuplicates(s: seq<string>, r: seq<string>, x: string)
    requires x in s && multiset(r) == multiset(s) - multiset{x}
    ensures forall y :: y != x ==> (y in r <==> y in s)
    ensures NoDuplicates(s) ==> NoDuplicates(r) && x !in r
  {
    forall y | y != x
      ensures y in r <==> y in s
    {
      assert y in r <==> y in multiset(r);
      assert y in s <==> y in multiset(s);
    }
    if NoDuplicates(s) {
      assert multiset(s)[x] == 1 by {
        var k :| 0 <= k < |s| && s[k] == x;
        CountOne(s, k);
      }
      assert x !in multiset(r);
      forall i, j | 0 <= i < j < |r|
        ensures r[i] != r[j]
      {
        if r[i] == r[j] {
          CountAtLeastTwo(r, i, j);
          var k :| 0 <= k < |s| && s[k] == r[i];
          CountOne(s, k);
        }
      }
    }
  }

  lemma {:induction false} CountOne(s: seq<string>, k: int)
    requires NoDuplicates(s) && 0 <= k < |s|
    ensures multiset(s)[s[k]] == 1
  {
    var x := s[k];
    var before, after := s[..k], s[k + 1..];
    assert s == before + [x] + after;
    assert x !in before;
    assert x !in after;
  }

  lemma CountAtLeastTwo(s: seq<string>, i: int, j: int)
    requires 0 <= i < j < |s| && s[i] == s[j]
    ensures multiset(s)[s[i]] >= 2
  {
    assert s == s[..j] + [s[j]] + s[j + 1..];
    assert s[i] in s[..j];
    assert s[i] in multiset(s[..j]);
  }

  /** Toggling an unselected entry twice restores the selection. */
  lemma ToggleTwiceRestores(selected: seq<string>, x: string)
    requires x !in selected
    ensures Toggle(Toggle(selected, x), x) == selected
  {
    RemoveLast(selected, x);
  }

  lemma {:induction false} RemoveLast(s: seq<string>, x: string)
    requires x !in s
    ensures RemoveFirst(s + [x], x) == s
  {
    if |s| > 0 {
      assert (s + [x])[1..] == s[1..] + [x];
      RemoveLast(s[1..], x);
    }
  }
}

=== FILE: sorting.dfy ===
/** Python's `list.sort(key=...)`: a stable sort by an integer key,
    written as an insertion sort, and the "buckets" reference shape of
    its result when the key takes finitely many known values. */
module StableSort {

  /** The elements of `xs` whose key is `p`, in their order in `xs`. */
  function Filter<T>(xs: seq<T>, key: T -> int, p: int): seq<T> {
    if |xs| == 0 then []
    else Filter(xs[..|xs| - 1], key, p) + (if key(xs[|xs| - 1]) == p then [xs[|xs| - 1]] else [])
  }

  predicate Sorted<T>(xs: seq<T>, key: T -> int) {
    forall i, j :: 0 <= i < j < |xs| ==> key(xs[i]) <= key(xs[j])
  }

  lemma FilterAppendOne<T>(xs: seq<T>, x: T, key: T -> int, p: int)
    ensures Filter(xs + [x], key, p) == Filter(xs, key, p) + (if key(x) == p then [x] else [])
  {
    assert (xs + [x])[..|xs|] == xs;
  }

  /** Inserts `x` after every element, from the back, whose key is not
      larger; into a sorted sequence this keeps it sorted. */
  function Insert<T>(x: T, s: seq<T>, key: T -> int): (r: seq<T>)
    ensures multiset(r) == multiset(s) + multiset{x}
    ensures Sorted(s, key) ==> Sorted(r, key)
    decreases |s|
  {
    if |s| == 0 || key(s[|s| - 1]) <= key(x) then
      SortedAppendGuarded(s, x, key);
      s + [x]
    else
      var r := Insert(x, s[..|s| - 1], key);
      InsertBeforeLast(x, s, r, key);
      r + [s[|s| - 1]]
  }

  lemma SortedAppendGuarded<T>(s: seq<T>, x: T, key: T -> int)
    requires |s| == 0 || key(s[|s| - 1]) <= key(x)
    ensures Sorted(s, key) ==> Sorted(s + [x], key)
  {
    if Sorted(s, key) {
      SortedAppend(s, x, key);
    }
  }

  lemma InsertBeforeLast<T>(x: T, s: seq<T>, r: seq<T>, key: T -> int)
    requires |s| > 0 && key(x) < key(s[|s| - 1])
    requires multiset(r) == multiset(s[..|s| - 1]) + multiset{x}
    requires Sorted(s[..|s| - 1], key) ==> Sorted(r, key)
    ensures multiset(r + [s[|s| - 1]]) == multiset(s) + multiset{x}
    ensures Sorted(s, key) ==> Sorted(r + [s[|s| - 1]], key)
  {
    assert s == s[..|s| - 1] + [s[|s| - 1]];
    if Sorted(s, key) {
      KeysBelowLast(x, s, r, key);
      SortedAppend(r, s[|s| - 1], key);
    }
  }

  /** What is inserted in front of the last element has keys no larger than its key. */
  lemma KeysBelowLast<T>(x: T, s: seq<T>, r: seq<T>, key: T -> int)
    requires Sorted(s, key) && |s| > 0 && key(x) < key(s[|s| - 1])
    requires multiset(r) == multiset(s[..|s| - 1]) + multiset{x}
    ensures forall i :: 0 <= i < |r| ==> key(r[i]) <= key(s[|s| - 1])
  {
    var s' := s[..|s| - 1];
    forall i | 0 <= i < |r|
      ensures key(r[i]) <= key(s[|s| - 1])
    {
      assert r[i] in multiset(r);
      if r[i] != x {
        assert r[i] in multiset(s');
        var j :| 0 <= j < |s'| && s'[j] == r[i];
        assert s[j] == r[i];
      }
    }
  }

  lemma SortedAppend<T>(r: seq<T>, y: T, key: T -> int)
    requires Sorted(r, key) && forall i :: 0 <= i < |r| ==> key(r[i]) <= key(y)
    ensures Sorted(r + [y], key)
  {
    var t := r + [y];
    forall i, j | 0 <= i < j < |t|
      ensures key(t[i]) <= key(t[j])
    {
      if j < |r| {
        assert t[i] == r[i] && t[j] == r[j];
      } else {
        assert t[i] == r[i] && t[j] == y;
      }
    }
  }

  /** Insertion is stable: among the elements of one key, the inserted one comes last. */
  lemma {:induction false} InsertKeepsFilter<T>(x: T, s: seq<T>, key: T -> int, p: int)
    ensures Filter(Insert(x, s, key), key, p) == Filter(s, key, p) + (if key(x) == p then [x] else [])
    decreases |s|
  {
    if |s| == 0 || key(s[|s| - 1]) <= key(x) {
      assert Insert(x, s, key) == s + [x];
      FilterAppendOne(s, x, key, p);
    } else {
      var s' := s[..|s| - 1];
      var y := s[|s| - 1];
      var r := Insert(x, s', key);
      assert Insert(x, s, key) == r + [y];
      InsertKeepsFilter(x, s', key, p);
      FilterPastLarger(r, s', x, y, key, p);
      assert s' + [y] == s;
    }
  }

  /** An element with a larger key appended after both sides keeps the inserted element's place. */
  lemma FilterPastLarger<T>(r: seq<T>, s: seq<T>, x: T, y: T, key: T -> int, p: int)
    requires key(x) < key(y)
    requires Filter(r, key, p) == Filter(s, key, p) + (if key(x) == p then [x] else [])
    ensures Filter(r + [y], key, p) == Filter(s + [y], key, p) + (if key(x) == p then [x] else [])
  {
    FilterAppendOne(r, y, key, p);
    FilterAppendOne(s, y, key, p);
  }

  /** `list.sort(key=key)`: insertion sort taking elements from the back. */
  function SortByKey<T>(xs: seq<T>, key: T -> int): (r: seq<T>)
    ensures Sorted(r, key)
    ensures multiset(r) == multiset(xs)
  {
    if |xs| == 0 then []
    else
      var init := xs[..|xs| - 1];
      var last := xs[|xs| - 1];
      assert xs == init + [last];
      Insert(last, SortByKey(init, key), key)
  }

  /** The sort is stable: the elements of each key keep their input order. */
  lemma {:induction false} SortKeepsFilter<T>(xs: seq<T>, key: T -> int, p: int)
    ensures Filter(SortByKey(xs, key), key, p) == Filter(xs, key, p)
  {
    if |xs| > 0 {
      var init := xs[..|xs| - 1];
      var last := xs[|xs| - 1];
      assert xs == init + [last];
      SortKeepsFilter(init, key, p);
      InsertKeepsFilter(last, SortByKey(init, key), key, p);
      FilterAppendOne(init, last, key, p);
    }
  }

  // ---------------------------------------------------------------------
  // The reference shape: one bucket per key value, in increasing key order
  // ---------------------------------------------------------------------

  function Buckets<T>(xs: seq<T>, key: T -> int, ks: seq<int>): seq<T> {
    if |ks| == 0 then [] else Filter(xs, key, ks[0]) + Buckets(xs, key, ks[1..])
  }

  predicate StrictlyIncreasing(ks: seq<int>) {
    forall i, j :: 0 <= i < j < |ks| ==> ks[i] < ks[j]
  }

  lemma {:induction false} FilterAbsentKey<T>(xs: seq<T>, key: T -> int, p: int)
    requires forall i :: 0 <= i < |xs| ==> key(xs[i]) != p
    ensures Filter(xs, key, p) == []
  {
    if |xs| > 0 {
      FilterAbsentKey(xs[..|xs| - 1], key, p);
    }
  }

  lemma {:induction false} FilterSingleKey<T>(xs: seq<T>, key: T -> int, p: int)
    requires forall i :: 0 <= i < |xs| ==> key(xs[i]) == p
    ensures Filter(xs, key, p) == xs
  {
    if |xs| > 0 {
      FilterSingleKey(xs[..|xs| - 1], key, p);
      assert xs == xs[..|xs| - 1] + [xs[|xs| - 1]];
    }
  }

  lemma {:induction false} BucketsOfAbsentKeys<T>(xs: seq<T>, key: T -> int, ks: seq<int>)
    requires forall i :: 0 <= i < |xs| ==> key(xs[i]) !in ks
    ensures Buckets(xs, key, ks) == []
  {
    if |ks| > 0 {
      FilterAbsentKey(xs, key, ks[0]);
      BucketsOfAbsentKeys(xs, key, ks[1..]);
    }
  }

  lemma {:induction false} BucketsAppendAbsent<T>(xs: seq<T>, x: T, key: T -> int, ks: seq<int>)
    requires key(x) !in ks
    ensures Buckets(xs + [x], key, ks) == Buckets(xs, key, ks)
  {
    if |ks| > 0 {
      FilterAppendOne(xs, x, key, ks[0]);
      BucketsAppendAbsent(xs, x, key, ks[1..]);
    }
  }

  lemma TailIncreasing(ks: seq<int>)
    requires StrictlyIncreasing(ks) && |ks| > 0
    ensures StrictlyIncreasing(ks[1..])
    ensures ks[0] !in ks[1..]
    ensures forall j :: 0 < j < |ks| ==> ks[0] < ks[j]
  {
    forall j | 0 <= j < |ks[1..]|
      ensures ks[1..][j] != ks[0]
    {
      assert ks[1..][j] == ks[j + 1];
    }
  }

  lemma {:induction false} BucketsAppendLast<T>(xs: seq<T>, x: T, key: T -> int, ks: seq<int>, m: nat)
    requires StrictlyIncreasing(ks) && m < |ks| && ks[m] == key(x)
    ensures Buckets(xs + [x], key, ks) == Buckets(xs, key, ks[..m + 1]) + [x] + Buckets(xs, key, ks[m + 1..])
    decreases m
  {
    var head := Filter(xs, key, ks[0]);
    TailIncreasing(ks);
    assert Buckets(xs, key, ks[..m + 1]) == head + Buckets(xs, key, ks[1..][..m]) by {
      assert ks[..m + 1][1..] == ks[1..][..m];
    }
    if m == 0 {
      assert Filter(xs + [x], key, ks[0]) == head + [x] by {
        FilterAppendOne(xs, x, key, ks[0]);
      }
      assert Buckets(xs + [x], key, ks[1..]) == Buckets(xs, key, ks[1..]) by {
        BucketsAppendAbsent(xs, x, key, ks[1..]);
      }
      assert Buckets(xs, key, ks[1..][..0]) == [];
    } else {
      assert Filter(xs + [x], key, ks[0]) == head by {
        FilterAppendOne(xs, x, key, ks[0]);
      }
      var mid := Buckets(xs, key, ks[1..][..m]);
      assert Buckets(xs + [x], key, ks[1..]) == mid + [x] + Buckets(xs, key, ks[m + 1..]) by {
        BucketsAppendLast(xs, x, key, ks[1..], m - 1);
        assert ks[1..][m..] == ks[m + 1..];
      }
    }
  }

  /** Before the last element of a sorted sequence come only keys up to its key. */
  lemma InitKeysUpTo<T>(ys: seq<T>, key: T -> int, ks: seq<int>, m: nat)
    requires Sorted(ys, key) && |ys| > 0 && StrictlyIncreasing(ks)
    requires forall i :: 0 <= i < |ys| ==> key(ys[i]) in ks
    requires m < |ks| && ks[m] == key(ys[|ys| - 1])
    ensures forall i :: 0 <= i < |ys| - 1 ==> key(ys[i]) in ks[..m + 1] && key(ys[i]) !in ks[m + 1..]
  {
    forall i | 0 <= i < |ys| - 1
      ensures key(ys[i]) in ks[..m + 1] && key(ys[i]) !in ks[m + 1..]
    {
      assert key(ys[i]) <= key(ys[|ys| - 1]);
      var t :| 0 <= t < |ks| && ks[t] == key(ys[i]);
      assert t <= m;
      assert ks[..m + 1][t] == ks[t];
    }
  }

  /** A sorted sequence whose keys all come from `ks` is the concatenation of its buckets. */
  lemma {:induction false} SortedIsBuckets<T>(ys: seq<T>, key: T -> int, ks: seq<int>)
    requires Sorted(ys, key) && StrictlyIncreasing(ks)
    requires forall i :: 0 <= i < |ys| ==> key(ys[i]) in ks
    ensures ys == Buckets(ys, key, ks)
  {
    if |ys| == 0 {
      BucketsOfAbsentKeys(ys, key, ks);
    } else {
      var init := ys[..|ys| - 1];
      var y := ys[|ys| - 1];
      assert ys == init + [y];
      assert key(y) in ks;
      var m :| 0 <= m < |ks| && ks[m] == key(y);
      BucketsAppendLast(init, y, key, ks, m);
      InitKeysUpTo(ys, key, ks, m);
      assert forall i :: 0 <= i < |init| ==> init[i] == ys[i];
      assert StrictlyIncreasing(ks[..m + 1]);
      SortedIsBuckets(init, key, ks[..m + 1]);
      BucketsOfAbsentKeys(init, key, ks[m + 1..]);
    }
  }

  lemma {:induction false} SortKeepsBuckets<T>(xs: seq<T>, key: T -> int, ks: seq<int>)
    ensures Buckets(SortByKey(xs, key), key, ks) == Buckets(xs, key, ks)
  {
    if |ks| > 0 {
      SortKeepsFilter(xs, key, ks[0]);
      SortKeepsBuckets(xs, key, ks[1..]);
    }
  }

  /** When every key comes from the increasing list `ks`, the stable sort
      lists the elements key by key, each key's elements in input order. */
  lemma SortIsBuckets<T>(xs: seq<T>, key: T -> int, ks: seq<int>)
    requires StrictlyIncreasing(ks)
    requires forall i :: 0 <= i < |xs| ==> key(xs[i]) in ks
    ensures SortByKey(xs, key) == Buckets(xs, key, ks)
  {
    var ys := SortByKey(xs, key);
    forall i | 0 <= i < |ys|
      ensures key(ys[i]) in ks
    {
      assert ys[i] in multiset(xs);
      var j :| 0 <= j < |xs| && xs[j] == ys[i];
    }
    SortedIsBuckets(ys, key, ks);
    SortKeepsBuckets(xs, key, ks);
  }
}

=== FILE: taskformat.dfy ===
/** The one-line task listing (`format_task_output` in
    commands/interactive.py and clients/jira.py). */
module TaskFormat {
  import opened Results
  import opened Text
  import opened Reviews
  import opened Tasks

  const MAX_SUMMARY_LENGTH: nat := 55
  const KEY_WIDTH: nat := 7

  const RED: char := '\U{1F534}'
  const YELLOW: char := '\U{1F7E1}'
  const GREEN: char := '\U{1F7E2}'

  const CHECK: char := '\U{2705}'
  const CROSS: char := '\U{274C}'
  const HOURGLASS: char := '\U{23F3}'
  const ROCKET: char := '\U{1F680}'

  /** A summary over the limit keeps its first 52 characters and gains "...". */
  function TruncateSummary(s: string): (r: string)
    ensures |s| <= MAX_SUMMARY_LENGTH ==> r == s
    ensures |s| > MAX_SUMMARY_LENGTH ==> |r| == MAX_SUMMARY_LENGTH && StartsWith(s, r[..52]) && r[52..] == "..."
  {
    if |s| > MAX_SUMMARY_LENGTH then s[..MAX_SUMMARY_LENGTH - 3] + "..." else s
  }

  /** Truncation is idempotent and never exceeds the limit. */
  lemma TruncateIdempotent(s: string)
    ensures |TruncateSummary(s)| <= MAX_SUMMARY_LENGTH
    ensures TruncateSummary(TruncateSummary(s)) == TruncateSummary(s)
  {
  }

  function PriorityIndicator(priority: string): (c: char)
    ensures c == RED <==> priority == "High" || priority == "Highest"
    ensures c == YELLOW <==> priority == "Medium"
    ensures c == GREEN <==> priority != "High" && priority != "Highest" && priority != "Medium"
  {
    if priority == "High" || priority == "Highest" then RED
    else if priority == "Medium" then YELLOW
    else GREEN
  }

  function PrIndicator(status: ReviewStatus): char {
    match status
    case Approved => CHECK
    case ChangesRequested => CROSS
    case ReviewRequired => HOURGLASS
    case NoReviews => ROCKET
  }

  /** Reads a review status back from its indicator. */
  function StatusOfIndicator(c: char): Option<ReviewStatus> {
    if c == CHECK then Some(Approved)
    else if c == CROSS then Some(ChangesRequested)
    else if c == HOURGLASS then Some(ReviewRequired)
    else if c == ROCKET then Some(NoReviews)
    else None
  }

  /** Each status has its own indicator: the indicator determines the status. */
  lemma IndicatorRoundTrip(status: ReviewStatus)
    ensures StatusOfIndicator(PrIndicator(status)) == Some(status)
  {
  }

  /** No pull-request indicator can be mistaken for a priority indicator. */
  lemma IndicatorsDistinct(status: ReviewStatus, priority: string)
    ensures PrIndicator(status) != PriorityIndicator(priority)
    ensures PrIndicator(status) != ' '
  {
  }

  /** The status column: one indicator when the task has a pull request, two spaces otherwise. */
  function PrSlot(t: Task): (slot: string)
    ensures !HasPr(t) ==> slot == "  "
    ensures HasPr(t) ==> |slot| == 1 && StatusOfIndicator(slot[0]) == Some(AnalyzePrReviews(PrReviews(t)))
  {
    if HasPr(t) then [PrIndicator(AnalyzePrReviews(PrReviews(t)))] else "  "
  }

  /** `f"{key[:7]:<7}"`. */
  function KeyColumn(key: string): (col: string)
    ensures |col| == KEY_WIDTH
    ensures StartsWith(key, col[..if |key| < KEY_WIDTH then |key| else KEY_WIDTH])
    ensures forall i :: |key| <= i < KEY_WIDTH ==> col[i] == ' '
  {
    LeftJustify(TakeAtMost(key, KEY_WIDTH), KEY_WIDTH)
  }

  function TaskKey(t: Task): string { t.key.GetOr("Unknown") }
  function TaskSummary(t: Task): string { t.summary.GetOr("No summary") }
  function TaskPriority(t: Task): string { t.priority.GetOr("Unknown") }

  /** `format_task_output`: the line reads back as its columns: indicator,
      status slot, key column and truncated summary, one space apart. */
  function FormatTaskOutput(t: Task): (line: string)
    ensures |line| == KeyStart(t) + KEY_WIDTH + 1 + |TruncateSummary(TaskSummary(t))|
    ensures line[0] == PriorityIndicator(TaskPriority(t)) && line[1] == ' '
    ensures line[2..KeyStart(t) - 1] == PrSlot(t) && line[KeyStart(t) - 1] == ' '
    ensures line[KeyStart(t)..KeyStart(t) + KEY_WIDTH] == KeyColumn(TaskKey(t))
    ensures line[KeyStart(t) + KEY_WIDTH] == ' '
    ensures line[KeyStart(t) + KEY_WIDTH + 1..] == TruncateSummary(TaskSummary(t))
  {
    var ind := [PriorityIndicator(TaskPriority(t))];
    var col := KeyColumn(TaskKey(t));
    var sum := TruncateSummary(TaskSummary(t));
    var k := KeyStart(t);
    var line := ind + " " + PrSlot(t) + " " + col + " " + sum;
    assert |PrSlot(t)| == k - 3;
    assert line[2..k - 1] == PrSlot(t);
    assert line[k..k + KEY_WIDTH] == col;
    assert line[k + KEY_WIDTH + 1..] == sum;
    line
  }

  /** Index at which the key column starts. */
  function KeyStart(t: Task): nat {
    if HasPr(t) then 4 else 5
  }

  /** Terminal columns a character takes: the indicators are wide. */
  function Width(c: char): nat {
    if c in {RED, YELLOW, GREEN, CHECK, CROSS, HOURGLASS, ROCKET} then 2 else 1
  }

  function DisplayWidth(s: string): nat {
    if |s| == 0 then 0 else DisplayWidth(s[..|s| - 1]) + Width(s[|s| - 1])
  }

  lemma {:induction false} DisplayWidthAppend(a: string, b: string)
    ensures DisplayWidth(a + b) == DisplayWidth(a) + DisplayWidth(b)
    decreases |b|
  {
    if |b| == 0 {
      assert a + b == a;
    } else {
      assert (a + b)[..|a + b| - 1] == a + b[..|b| - 1];
      DisplayWidthAppend(a, b[..|b| - 1]);
    }
  }

  /** Keys line up on screen: with or without a pull request the key
      column starts six terminal columns in. */
  lemma KeyColumnAligned(t: Task)
    ensures DisplayWidth(FormatTaskOutput(t)[..KeyStart(t)]) == 6
  {
    var line := FormatTaskOutput(t);
    var ind := [PriorityIndicator(TaskPriority(t))];
    var k := KeyStart(t);
    assert line[..k] == ind + " " + PrSlot(t) + " ";
    DisplayWidthAppend(ind + " " + PrSlot(t), " ");
    DisplayWidthAppend(ind + " ", PrSlot(t));
    DisplayWidthAppend(ind, " ");
    assert DisplayWidth(ind) == 2 by {
      assert ind[..0] == [];
    }
    assert DisplayWidth(" ") == 1 by {
      assert " "[..0] == [];
    }
    if HasPr(t) {
      var s := PrSlot(t);
      assert s[..0] == [];
      assert Width(s[0]) == 2;
    } else {
      assert "  "[..1] == " ";
    }
  }

  /** A task never enriched, with no fields, shows the defaults. */
  lemma DefaultsShown()
    ensures FormatTaskOutput(Task(None, None, None, None)) == [GREEN] + "    Unknown No summary"
  {
    var t := Task(None, None, None, None);
    assert KeyColumn(TaskKey(t)) == "Unknown" by {
      assert LeftJustify(TakeAtMost("Unknown", KEY_WIDTH), KEY_WIDTH) == "Unknown";
    }
    assert PrSlot(t) == "  ";
    assert TruncateSummary(TaskSummary(t)) == "No summary";
    assert FormatTaskOutput(t) == [GREEN] + " " + "  " + " " + "Unknown" + " " + "No summary";
  }
}

=== FILE: tasks.dfy ===
/** Enrichment of tracker tasks with pull-request data and their ranking
    (`_get_pr_sort_priority` and the enrichment block of
    `fetch_my_incomplete_tasks`, in client.py and in clients/jira.py with
    clients/github.py). */
module Tasks {
  import opened Results
  import opened Reviews
  import opened Matching
  import opened StableSort

  /** The `_pr_url`, `_has_pr`, `_pr_reviews` and `_pr_state` entries the enrichment pass adds. */
  datatype Enrichment = Enrichment(prUrl: Option<string>, hasPr: bool, prReviews: seq<Review>, prState: Option<string>)

  /** A tracker issue: `key`, `fields.summary`, `fields.priority.name`, and
      the enrichment entries once they have been added. */
  datatype Task = Task(key: Option<string>, summary: Option<string>, priority: Option<string>, pr: Option<Enrichment>)

  /** `task.get("_has_pr")` is truthy. */
  predicate HasPr(t: Task) {
    t.pr.Some? && t.pr.value.hasPr
  }

  /** `task.get("_pr_reviews", [])`. */
  function PrReviews(t: Task): seq<Review> {
    if t.pr.Some? then t.pr.value.prReviews else []
  }

  /** The enrichment of a task for which no pull request was found. */
  const NoPr: Enrichment := Enrichment(None, false, [], None)

  /** `_get_pr_sort_priority`: lower sorts first. */
  function SortPriority(t: Task): (p: int)
    ensures p in {0, 1, 2, 4}
    ensures p == 4 <==> !HasPr(t)
    ensures p == 0 <==> HasPr(t) && AnalyzePrReviews(PrReviews(t)) == Approved
    ensures p == 2 <==> HasPr(t) && PrReviews(t) == []
  {
    if !HasPr(t) then 4
    else
      match AnalyzePrReviews(PrReviews(t))
      case Approved => 0
      case ChangesRequested => 1
      case ReviewRequired => 1
      case NoReviews => 2
  }

  /** An approved pull request ranks before a reviewed but unapproved one,
      which ranks before one without reviews, which ranks before no pull request. */
  lemma RankingOrder(a: Task, b: Task)
    ensures (HasPr(a) && AnalyzePrReviews(PrReviews(a)) == Approved
             && HasPr(b) && AnalyzePrReviews(PrReviews(b)) != Approved)
            ==> SortPriority(a) < SortPriority(b)
    ensures HasPr(a) && PrReviews(a) != [] && HasPr(b) && PrReviews(b) == [] ==> SortPriority(a) < SortPriority(b)
    ensures HasPr(a) && !HasPr(b) ==> SortPriority(a) < SortPriority(b)
    ensures (HasPr(a) && HasPr(b) && AnalyzePrReviews(PrReviews(a)) == AnalyzePrReviews(PrReviews(b)))
            ==> SortPriority(a) == SortPriority(b)
  {
  }

  /** The per-task step of the enrichment loop. */
  function AttachPr(t: Task, prs: seq<PullRequest>): (r: Task)
    ensures r.key == t.key && r.summary == t.summary && r.priority == t.priority
    ensures r.pr.Some?
    ensures HasPr(r) <==> FindPrByContent(t.key.GetOr(""), prs).Some?
    ensures !HasPr(r) ==> r.pr.value == NoPr
    ensures HasPr(r) ==>
              var info := FindPrByContent(t.key.GetOr(""), prs).value;
              r.pr.value == Enrichment(info.url, true, info.reviews, info.state)
  {
    match FindPrByContent(t.key.GetOr(""), prs)
    case Some(info) => t.(pr := Some(Enrichment(info.url, true, info.reviews, info.state)))
    case None => t.(pr := Some(NoPr))
  }

  function AttachAll(tasks: seq<Task>, prs: seq<PullRequest>): (r: seq<Task>)
    ensures |r| == |tasks|
    ensures forall i :: 0 <= i < |r| ==> r[i] == AttachPr(tasks[i], prs)
  {
    seq(|tasks|, i requires 0 <= i < |tasks| => AttachPr(tasks[i], prs))
  }

  predicate Enriched(t: Task) {
    t.pr.Some? && (!t.pr.value.hasPr ==> t.pr.value == NoPr)
  }

  lemma SortedElementsEnriched(xs: seq<Task>, ys: seq<Task>)
    requires forall i :: 0 <= i < |xs| ==> Enriched(xs[i])
    requires multiset(ys) == multiset(xs)
    ensures forall i :: 0 <= i < |ys| ==> Enriched(ys[i])
  {
    forall i | 0 <= i < |ys|
      ensures Enriched(ys[i])
    {
      assert ys[i] in multiset(xs);
      var j :| 0 <= j < |xs| && xs[j] == ys[i];
    }
  }

  /** Enrichment followed by `issues.sort(key=_get_pr_sort_priority)`. */
  function EnrichTasks(tasks: seq<Task>, prs: seq<PullRequest>): (r: seq<Task>)
    ensures |r| == |tasks|
    ensures forall i :: 0 <= i < |r| ==> Enriched(r[i])
    ensures multiset(r) == multiset(AttachAll(tasks, prs))
    ensures Sorted(r, SortPriority)
  {
    var attached := AttachAll(tasks, prs);
    var r := SortByKey(attached, SortPriority);
    assert |r| == |multiset(r)| == |multiset(attached)| == |attached|;
    SortedElementsEnriched(attached, r);
    r
  }

  const PriorityOrder: seq<int> := [0, 1, 2, 4]

  /** The ranked list is: approved tasks, then reviewed ones, then those
      with an unreviewed pull request, then those without one; each group
      in input order. */
  lemma EnrichIsRanked(tasks: seq<Task>, prs: seq<PullRequest>)
    ensures EnrichTasks(tasks, prs) == Buckets(AttachAll(tasks, prs), SortPriority, PriorityOrder)
  {
    var attached := AttachAll(tasks, prs);
    forall i | 0 <= i < |attached|
      ensures SortPriority(attached[i]) in PriorityOrder
    {
    }
    SortIsBuckets(attached, SortPriority, PriorityOrder);
  }

  /** With no pull requests every task is marked as having none and the input order is kept. */
  lemma EnrichWithoutPrs(tasks: seq<Task>)
    ensures EnrichTasks(tasks, []) == AttachAll(tasks, [])
    ensures forall i :: 0 <= i < |tasks| ==> !HasPr(EnrichTasks(tasks, [])[i])
  {
    var attached := AttachAll(tasks, []);
    forall i | 0 <= i < |attached|
      ensures SortPriority(attached[i]) == 4
    {
      assert !HasPr(attached[i]);
    }
    SortIsBuckets(attached, SortPriority, [4]);
    FilterSingleKey(attached, SortPriority, 4);
  }

  /** `fetch_my_incomplete_tasks` with its two fetches as inputs: a failed
      task fetch is reported, a failed pull-request fetch counts as no pull requests. */
  function FetchMyIncompleteTasks(
    taskFetch: Result<seq<Task>, string>,
    prFetch: Result<seq<PullRequest>, string>): (r: Result<seq<Task>, string>)
    ensures r.Failure? <==> taskFetch.Failure?
    ensures r.Failure? ==> r.error == "Failed to fetch JIRA tasks: " + taskFetch.error
    ensures r.Success? ==> |r.value| == |taskFetch.value|
    ensures r.Success? ==> forall i :: 0 <= i < |r.value| ==> Enriched(r.value[i])
    ensures r.Success? && prFetch.Failure? ==> r.value == AttachAll(taskFetch.value, [])
    ensures r.Success? && prFetch.Success? ==> r.value == EnrichTasks(taskFetch.value, prFetch.value)
  {
    match taskFetch
    case Failure(e) => Failure("Failed to fetch JIRA tasks: " + e)
    case Success(tasks) =>
      var prs := if prFetch.Success? then prFetch.value else [];
      EnrichWithoutPrs(tasks);
      Success(EnrichTasks(tasks, prs))
  }
}

=== FILE: text.dfy ===
/** String helpers with Python `str` semantics, restricted to ASCII where
    Python consults the Unicode database (`upper`, `lower`, `isspace`,
    `isdigit`). Every other module builds on these. */
module Text {
  import opened Results

  // ---------------------------------------------------------------------
  // Case mapping (`str.upper`, `str.lower` over ASCII letters)
  // ---------------------------------------------------------------------

  function UpperChar(c: char): char {
    if 'a' <= c <= 'z' then (c as int - 32) as char else c
  }

  function LowerChar(c: char): char {
    if 'A' <= c <= 'Z' then (c as int + 32) as char else c
  }

  function Upper(s: string): string {
    seq(|s|, i requires 0 <= i < |s| => UpperChar(s[i]))
  }

  function Lower(s: string): string {
    seq(|s|, i requires 0 <= i < |s| => LowerChar(s[i]))
  }

  /** Folding to upper case and folding to lower case identify the same pairs of characters. */
  lemma FoldsAgreeOnChars(a: char, b: char)
    ensures UpperChar(a) == UpperChar(b) <==> LowerChar(a) == LowerChar(b)
  {
  }

  lemma UpperOfLower(s: string)
    ensures Upper(Lower(s)) == Upper(s)
  {
  }

  lemma LowerOfUpper(s: string)
    ensures Lower(Upper(s)) == Lower(s)
  {
  }

  /** Folding twice folds once. */
  lemma LowerOfLower(s: string)
    ensures Lower(Lower(s)) == Lower(s)
  {
  }

  lemma UpperOfUpper(s: string)
    ensures Upper(Upper(s)) == Upper(s)
  {
  }

  lemma UpperAppend(a: string, b: string)
    ensures Upper(a + b) == Upper(a) + Upper(b)
  {
  }

  lemma LowerAppend(a: string, b: string)
    ensures Lower(a + b) == Lower(a) + Lower(b)
  {
  }

  /** Two strings with the same upper-case fold also have the same lower-case fold. */
  lemma SameUpperSameLower(a: string, b: string)
    requires Upper(a) == Upper(b)
    ensures Lower(a) == Lower(b)
  {
    assert |a| == |Upper(a)| == |Upper(b)| == |b|;
    forall i | 0 <= i < |a|
      ensures Lower(a)[i] == Lower(b)[i]
    {
      assert Upper(a)[i] == Upper(b)[i];
      FoldsAgreeOnChars(a[i], b[i]);
    }
  }

  // ---------------------------------------------------------------------
  // Substrings (`str.startswith`, the `in` operator on strings)
  // ---------------------------------------------------------------------

  predicate StartsWith(s: string, prefix: string) {
    |prefix| <= |s| && s[..|prefix|] == prefix
  }

  /** `t in s`: some position of `s` starts an occurrence of `t`. */
  predicate Contains(s: string, t: string)
    decreases |s|
  {
    StartsWith(s, t) || (|s| > 0 && Contains(s[1..], t))
  }

  /** Case-insensitive containment, the single fold the model reasons with. */
  predicate ContainsIgnoringCase(s: string, t: string) {
    Contains(Upper(s), Upper(t))
  }

  lemma StartsWithFoldsAgree(s: string, t: string)
    ensures StartsWith(Upper(s), Upper(t)) <==> StartsWith(Lower(s), Lower(t))
  {
    if |t| <= |s| {
      if StartsWith(Upper(s), Upper(t)) {
        forall i | 0 <= i < |t|
          ensures Lower(s)[i] == Lower(t)[i]
        {
          assert Upper(s)[..|t|][i] == Upper(t)[i];
          FoldsAgreeOnChars(s[i], t[i]);
        }
        assert Lower(s)[..|Lower(t)|] == Lower(t);
      }
      if StartsWith(Lower(s), Lower(t)) {
        forall i | 0 <= i < |t|
          ensures Upper(s)[i] == Upper(t)[i]
        {
          assert Lower(s)[..|t|][i] == Lower(t)[i];
          FoldsAgreeOnChars(s[i], t[i]);
        }
        assert Upper(s)[..|Upper(t)|] == Upper(t);
      }
    }
  }

  /** Searching upper-cased strings and searching lower-cased strings give the same answer. */
  lemma {:induction false} ContainsFoldsAgree(s: string, t: string)
    ensures Contains(Upper(s), Upper(t)) <==> Contains(Lower(s), Lower(t))
    decreases |s|
  {
    StartsWithFoldsAgree(s, t);
    if |s| > 0 {
      assert Upper(s)[1..] == Upper(s[1..]);
      assert Lower(s)[1..] == Lower(s[1..]);
      ContainsFoldsAgree(s[1..], t);
    }
  }

  lemma {:induction false} ContainsInSuffix(a: string, b: string, t: string)
    requires Contains(b, t)
    ensures Contains(a + b, t)
    decreases |a|
  {
    if |a| > 0 {
      assert (a + b)[1..] == a[1..] + b;
      ContainsInSuffix(a[1..], b, t);
    } else {
      assert a + b == b;
    }
  }

  lemma {:induction false} ContainsInPrefix(a: string, b: string, t: string)
    requires Contains(a, t)
    ensures Contains(a + b, t)
    decreases |a|
  {
    if StartsWith(a, t) {
      assert (a + b)[..|t|] == a[..|t|];
    } else {
      ContainsInPrefix(a[1..], b, t);
      assert (a + b)[1..] == a[1..] + b;
    }
  }

  // ---------------------------------------------------------------------
  // `sep.join(xs)` and `s.split(sep)`
  // ---------------------------------------------------------------------

  function Join(sep: string, xs: seq<string>): string {
    if |xs| == 0 then ""
    else if |xs| == 1 then xs[0]
    else xs[0] + sep + Join(sep, xs[1..])
  }

  /** `s.split(sep)` for a non-empty separator: the pieces between the
      leftmost non-overlapping occurrences of `sep`; never an empty list. */
  function Split(s: string, sep: string): (r: seq<string>)
    requires |sep| > 0
    ensures |r| > 0
    decreases |s|
  {
    if |s| < |sep| then [s]
    else if s[..|sep|] == sep then [""] + Split(s[|sep|..], sep)
    else
      var rest := Split(s[1..], sep);
      [[s[0]] + rest[0]] + rest[1..]
  }

  lemma JoinConsHead(sep: string, c: string, x: string, xs: seq<string>)
    ensures Join(sep, [c + x] + xs) == c + Join(sep, [x] + xs)
  {
    if |xs| > 0 {
      assert ([c + x] + xs)[1..] == xs;
      assert ([x] + xs)[1..] == xs;
    }
  }

  /** Joining the pieces of a split with the same separator gives back the input. */
  lemma {:induction false} JoinSplit(s: string, sep: string)
    requires |sep| > 0
    ensures Join(sep, Split(s, sep)) == s
    decreases |s|
  {
    if |s| < |sep| {
    } else if s[..|sep|] == sep {
      var rest := Split(s[|sep|..], sep);
      assert Split(s, sep) == [""] + rest;
      assert Join(sep, rest) == s[|sep|..] by {
        JoinSplit(s[|sep|..], sep);
      }
      assert ([""] + rest)[1..] == rest;
      assert s == sep + s[|sep|..];
    } else {
      var rest := Split(s[1..], sep);
      assert Split(s, sep) == [[s[0]] + rest[0]] + rest[1..];
      assert Join(sep, rest) == s[1..] by {
        JoinSplit(s[1..], sep);
      }
      assert Join(sep, [[s[0]] + rest[0]] + rest[1..]) == [s[0]] + Join(sep, rest) by {
        JoinConsHead(sep, [s[0]], rest[0], rest[1..]);
        assert [rest[0]] + rest[1..] == rest;
      }
      assert s == [s[0]] + s[1..];
    }
  }

  /** A piece free of a one-character separator followed by that separator splits off as the first piece. */
  lemma {:induction false} SplitAfterPiece(x: string, c: char, rest: string)
    requires c !in x
    ensures Split(x + [c] + rest, [c]) == [x] + Split(rest, [c])
    decreases |x|
  {
    var s := x + [c] + rest;
    if |x| == 0 {
      assert s[..1] == [c];
      assert s[1..] == rest;
    } else {
      assert s[..1] != [c] by { assert s[0] == x[0]; assert x[0] in x; }
      assert s[1..] == x[1..] + [c] + rest;
      SplitAfterPiece(x[1..], c, rest);
      assert [s[0]] + x[1..] == x;
    }
  }

  lemma {:induction false} SplitWithoutSeparator(x: string, c: char)
    requires c !in x
    ensures Split(x, [c]) == [x]
    decreases |x|
  {
    if |x| > 0 {
      assert x[..1] != [c] by { assert x[0] in x; }
      SplitWithoutSeparator(x[1..], c);
      assert [x[0]] + x[1..] == x;
    }
  }

  /** Splitting a join on a one-character separator that no piece contains gives back the pieces. */
  lemma {:induction false} SplitJoin(xs: seq<string>, c: char)
    requires |xs| > 0
    requires forall i :: 0 <= i < |xs| ==> c !in xs[i]
    ensures Split(Join([c], xs), [c]) == xs
    decreases |xs|
  {
    if |xs| == 1 {
      SplitWithoutSeparator(xs[0], c);
    } else {
      SplitJoin(xs[1..], c);
      SplitAfterPiece(xs[0], c, Join([c], xs[1..]));
      assert [xs[0]] + xs[1..] == xs;
    }
  }

  // ---------------------------------------------------------------------
  // Whitespace (`str.isspace` over ASCII, `str.strip`, `str.split()[0]`)
  // ---------------------------------------------------------------------

  predicate IsSpace(c: char) {
    c == ' ' || 9 <= c as int <= 13 || 28 <= c as int <= 31
  }

  function StripLeft(s: string): (r: string)
    ensures |r| <= |s| && r == s[|s| - |r|..]
    ensures forall i :: 0 <= i < |s| - |r| ==> IsSpace(s[i])
    ensures r == [] || !IsSpace(r[0])
  {
    if |s| > 0 && IsSpace(s[0]) then StripLeft(s[1..]) else s
  }

  function StripRight(s: string): (r: string)
    ensures |r| <= |s| && r == s[..|r|]
    ensures forall i :: |r| <= i < |s| ==> IsSpace(s[i])
    ensures r == [] || !IsSpace(r[|r| - 1])
  {
    if |s| > 0 && IsSpace(s[|s| - 1]) then StripRight(s[..|s| - 1]) else s
  }

  function Strip(s: string): string {
    StripRight(StripLeft(s))
  }

  /** The leading run of non-space characters. */
  function TakeWord(s: string): (r: string)
    ensures StartsWith(s, r)
    ensures forall i :: 0 <= i < |r| ==> !IsSpace(r[i])
    ensures |r| < |s| ==> IsSpace(s[|r|])
  {
    if |s| == 0 || IsSpace(s[0]) then [] else [s[0]] + TakeWord(s[1..])
  }

  /** `s.split()[0]`, or "" when `s` holds no word. */
  function FirstWord(s: string): string {
    TakeWord(StripLeft(s))
  }

  // ---------------------------------------------------------------------
  // Decimal numbers (`str.isdigit`, `int(token)`, `str(n)`)
  // ---------------------------------------------------------------------

  predicate IsDigit(c: char) {
    '0' <= c <= '9'
  }

  /** `s.isdigit()`: non-empty and all ASCII digits. */
  predicate IsDigits(s: string) {
    |s| > 0 && forall i :: 0 <= i < |s| ==> IsDigit(s[i])
  }

  function DigitsValue(s: string): nat
    requires forall i :: 0 <= i < |s| ==> IsDigit(s[i])
  {
    if |s| == 0 then 0
    else
      assert IsDigit(s[|s| - 1]);
      DigitsValue(s[..|s| - 1]) * 10 + (s[|s| - 1] as int - '0' as int)
  }

  /** `int(token)` for a token without whitespace: an optional sign and
      at least one digit; anything else raises `ValueError` (here `None`). */
  function ParseInt(s: string): Option<int> {
    if IsDigits(s) then Some(DigitsValue(s))
    else if |s| > 0 && s[0] == '-' && IsDigits(s[1..]) then Some(0 - DigitsValue(s[1..]) as int)
    else if |s| > 0 && s[0] == '+' && IsDigits(s[1..]) then Some(DigitsValue(s[1..]))
    else None
  }

  function DigitChar(d: nat): char
    requires d < 10
  {
    ('0' as int + d) as char
  }

  function NatToString(n: nat): (r: string)
    ensures IsDigits(r)
  {
    if n < 10 then [DigitChar(n)] else NatToString(n / 10) + [DigitChar(n % 10)]
  }

  /** Reading back the decimal rendering of `n` gives `n`. */
  lemma {:induction false} NatToStringRoundTrip(n: nat)
    ensures DigitsValue(NatToString(n)) == n
  {
    if n >= 10 {
      var s := NatToString(n);
      assert s[..|s| - 1] == NatToString(n / 10);
      NatToStringRoundTrip(n / 10);
    }
  }

  lemma ParseIntOfNat(n: nat)
    ensures ParseInt(NatToString(n)) == Some(n)
  {
    NatToStringRoundTrip(n);
  }

  // ---------------------------------------------------------------------
  // Slicing and padding (`s[:n]`, `f"{s:<w}"`)
  // ---------------------------------------------------------------------

  function TakeAtMost(s: string, n: nat): (r: string)
    ensures |r| == if |s| <= n then |s| else n
    ensures StartsWith(s, r)
  {
    if |s| <= n then s else s[..n]
  }

  function Spaces(n: nat): (r: string)
    ensures |r| == n && forall i :: 0 <= i < n ==> r[i] == ' '
  {
    if n == 0 then "" else Spaces(n - 1) + " "
  }

  /** `f"{s:<width}"`: `s` followed by enough spaces to reach `width`. */
  function LeftJustify(s: string, width: nat): (r: string)
    ensures |r| == if |s| < width then width else |s|
    ensures StartsWith(r, s)
    ensures forall i :: |s| <= i < |r| ==> r[i] == ' '
  {
    if |s| < width then s + Spaces(width - |s|) else s
  }
}
